=== FILE: README.md ===
# CV backend core in Dafny

This project models the data-mapping core of a Laravel CV backend. A CV is
stored as a `Profile` row. The row holds an `info` block and five JSON lists:
educations, experiences, projects, languages and interests. The API works in
a different `user_data` shape. The model covers:

- the two-way mapper between `user_data` and the stored columns
  (`CVDataMapper`), with its round trips and its asymmetries;
- the partial-update merge, the `store` defaults, the `print` endpoint and
  the guest PDF path of `CVController`;
- the request checks of `UpdateCVRequest` and `PrintCVRequest`: enumerations,
  bounds, the template and ownership checks, and the per-index date-range
  checks, with their error paths such as `user_data.experiences.0.to`;
- `CVPDFService`: the view slug, the download file name, the output mode,
  the exception mapping and the temporary Profile;
- the template choice and failure order of the HTML preview;
- the default-template rule of the template form;
- the guards of the admin "Print" page;
- the lookups and the `update` of `CVRepository`, and the `Profile`
  model's mass-assignment rule (`ProfileModel`).

PHP's array keys have three states: missing, present and null, or present
with a value. They are modelled as `Slot<T>` (`Absent | Null | Given(v)`).
Stored nullable columns are `Option<T>`. Dates are validated `Y-m` strings,
modelled as `(year, month)` pairs compared lexicographically. The PDF
renderer is a function parameter from a render job to an outcome: a PDF, or
one of four exception kinds. The set of registered Blade views is also a
parameter, and so is the value `uniqid` returns. Table contents are passed
in as sequences of rows.

Modules, one per file: `Wrappers`, `Shapes`, `Collections`, `Proficiency`,
`CVDataMapper`, `MapperRoundTrip`, `ErrorPaths`, `ProfileModel`, `CVRepository`,
`CVValidation`, `CVPDFService`, `CVController`, `ProfilePreview`,
`TemplateForm`, `PrintProfile`.

## Model

| member | source | states |
|---|---|---|
| Proficiency.LevelWord | app/Services/CVDataMapper.php:73-82 | The stored level word is one of the five words; 1..5 pick their word in table order, and any other value (missing, 0, 6, negative) becomes `beginner`. |
| Proficiency.LevelNumber | app/Services/CVDataMapper.php:159-169 | The API level is in 1..5; a known word maps to its position in the table; any other or missing word maps to 1. |
| Proficiency.NumberRoundTrip | app/Services/CVDataMapper.php:73-82 | A level in 1..5 survives inbound then outbound mapping. |
| Proficiency.WordRoundTrip | app/Services/CVDataMapper.php:159-169 | A known level word survives outbound then inbound mapping. |
| Proficiency.OutOfRangeNotRestored | app/Services/CVDataMapper.php:73-82 | A level outside 1..5 is stored as `beginner` and comes back as 1, which differs from what was sent. |
| Collections.ArrayMap | app/Services/CVDataMapper.php:37-94 | `array_map` keeps length and order, and maps each element in place. |
| Collections.ArrayMapInverse | app/Services/CVDataMapper.php:125-180 | Mapping a list forward and back gives it back when the element maps undo each other. |
| Collections.Where | app/Repositories/CVRepository.php:16-22 | A filtered query returns exactly the matching rows, each as often as the table holds it, and nothing else. |
| Collections.First | app/Repositories/CVRepository.php:30-32 | `first()` returns a matching row with no matching row before it, and null exactly when no row matches. |
| Collections.WhereAgree | app/Repositories/CVRepository.php:18-20 | Two conditions that agree on every row select the same rows. |
| CVDataMapper.Inbound | app/Services/CVDataMapper.php:12-97 | `info` exists iff `user_data` is non-empty and then holds the nine personal keys, each null when missing; `skills` is inside it iff set; each list is mapped iff set, even when empty, keeping length and order with the renames (`company`→`name`, `current`→`currentlyWorkingHere` defaulting to false, `title`→`name`, `name`→`language`, `name`→`interest`) and the level words. |
| CVDataMapper.Outbound | app/Services/CVDataMapper.php:102-184 | With no stored `info` no personal key is written; otherwise all nine are written, possibly null. A list key is written iff the stored list is non-empty, with the inverse renames and level numbers. Projects never carry `current` or `technologies`. |
| CVDataMapper.FormatProfileResponse | app/Services/CVDataMapper.php:189-201 | The response's `user_data` is the outbound mapping; id, `user_id`, name, language and `sections_order` are copied. |
| MapperRoundTrip.OutboundHasResponseShape | app/Services/CVDataMapper.php:102-184 | Every outbound result has the response shape: all or none of the personal keys, lists missing or non-empty, every experience with `current`, every level in 1..5. |
| MapperRoundTrip.ApiRoundTrip | app/Services/CVDataMapper.php:12-184 | A response-shaped `user_data` that carries the personal keys is stored and read back unchanged. |
| MapperRoundTrip.StorageRoundTrip | app/Services/CVDataMapper.php:12-184 | A storage-shaped row's columns are reproduced exactly by mapping them out and back in. |
| MapperRoundTrip.NullInfoInvented | app/Services/CVDataMapper.php:17-28 | A non-empty `user_data` with no personal key is stored with an `info` of nine nulls and comes back with nine null keys, so it is not echoed. |
| MapperRoundTrip.EmptyListNotEchoed | app/Services/CVDataMapper.php:37-42 | A list sent as `[]` is stored as `[]`, but the response omits its key. |
| MapperRoundTrip.ExperienceRoundTrip | app/Services/CVDataMapper.php:43-55 | One experience survives the round trip, except that a missing `current` comes back as false. |
| MapperRoundTrip.ProjectRoundTrip | app/Services/CVDataMapper.php:57-66 | One project survives the round trip without `current` and `technologies`. |
| MapperRoundTrip.LanguageRoundTrip | app/Services/CVDataMapper.php:70-84 | A language with a level in 1..5 survives the round trip; any other level comes back as 1. |
| ErrorPaths.NatToString | app/Http/Requests/Api/UpdateCVRequest.php:80-88 | The decimal form of an index is a non-empty digit string, one digit long exactly for indices below 10. |
| ErrorPaths.NatToStringInjective | app/Http/Requests/Api/UpdateCVRequest.php:80-88 | Distinct indices are printed differently. |
| ErrorPaths.DateRangePathInjective | app/Http/Requests/Api/UpdateCVRequest.php:79-118 | Two date-range errors share a path only when they name the same list and index, so each offending entry gets its own key. |
| ErrorPaths.DateRangePathForm | app/Http/Requests/Api/UpdateCVRequest.php:96-101 | Every date-range path is `user_data.`, the section name, a dot, the decimal index, then `.to`, for every section and index. |
| ErrorPaths.FirstExperiencePath | app/Http/Requests/Api/UpdateCVRequest.php:96-101 | Example: the first experience's date error is reported at `user_data.experiences.0.to`. |
| ProfileModel.Assign | app/Http/Controllers/Api/CVController.php:117-147 | Assigning attributes one by one writes every key the array holds, fillable or not, keeps every key it does not hold, and never touches the id. |
| ProfileModel.Fillable | app/Models/Profile.php:14-22 | Mass assignment keeps `user_id` and the six JSON columns and drops `name`, `language` and `sections_order`. |
| ProfileModel.Fill | app/Models/Profile.php:14-22 | `fill` never changes `name`, `language` or `sections_order`; it writes each fillable key the array holds and keeps the others. |
| ProfileModel.FillAgreesWithAssign | app/Models/Profile.php:14-22 | `fill` and direct assignment give the same row exactly when the array sets none of the three guarded keys to a new value. |
| ProfileModel.NewModel | app/Models/Profile.php:14-22 | `new Profile($attributes)` has no id and null `name`, `language` and `sections_order`; otherwise it is the array assigned key by key. |
| ProfileModel.Insert | database/migrations/2025_11_27_112846_update_profiles_table_for_cv_api.php:22-23 | A new row without a name is refused, since `name` has no default. Otherwise the row gets the new id, and its language defaults to `en`. |
| ProfileModel.Create | database/migrations/2025_11_27_112846_update_profiles_table_for_cv_api.php:22-23 | A stored `Profile::create` row has the new id and the mass-assigned JSON columns. |
| ProfileModel.CreateNeverStores | app/Models/Profile.php:14-22 | `Profile::create` is refused for every attribute array, because `name` is never mass-assigned. |
| CVRepository.GetAllForUser | app/Repositories/CVRepository.php:14-23 | Exactly the caller's profiles are returned, each as often as stored; a truthy language further restricts them to that language. |
| CVRepository.FalsyLanguageIgnored | app/Repositories/CVRepository.php:18-20 | A null, `""` or `"0"` language gives the same list as no language. |
| CVRepository.FindByIdForUser | app/Repositories/CVRepository.php:28-33 | The result has the id and belongs to the user; it is null iff no row has both. |
| CVRepository.FindById | app/Repositories/CVRepository.php:65-68 | The result has the id; it is null iff no row has it; ownership plays no part. |
| CVRepository.FindActiveTemplate | app/Repositories/CVRepository.php:73-78 | The result has the id and is active; it is null iff no active template has the id. |
| CVRepository.FindByIdUnique | app/Repositories/CVRepository.php:65-68 | With unique ids, looking up a row's id returns that row. |
| CVRepository.ForeignProfileHidden | app/Repositories/CVRepository.php:28-33 | A row that exists under another user is not found for this user. |
| CVRepository.OwnedLookupAgrees | app/Repositories/CVRepository.php:28-33 | For the owner, the owner-scoped lookup agrees with the plain lookup. |
| CVRepository.InactiveTemplateNotFound | app/Repositories/CVRepository.php:73-78 | An inactive template is not found as active, though it exists. |
| CVRepository.Update | app/Repositories/CVRepository.php:46-52 | `fill` then `save` returns the same row (same id). `name`, `language` and `sections_order` always keep their stored values, because `$fillable` leaves them out. Each of the seven fillable keys is written when the patch holds it and kept when it does not. |
| CVValidation.Spans | app/Http/Requests/Api/UpdateCVRequest.php:79-118 | Each entry read by the date check is reversed iff its entry offends: both dates set, `from` after `to`, and for experiences and projects not `current`. |
| CVValidation.SectionErrors | app/Http/Requests/Api/UpdateCVRequest.php:79-90 | Every reversed entry gets an error at its own index, only reversed entries do, and the errors are in index order; there is no early exit. |
| CVValidation.CollectSectionErrors | app/Http/Requests/Api/UpdateCVRequest.php:80-89 | The `foreach` loop collects exactly the section's errors. |
| CVValidation.ListDateErrors | app/Http/Requests/Api/UpdateCVRequest.php:93-104 | One list reports `DateRangeKey(sec, i)` iff its entry `i` offends, in index order. |
| CVValidation.DateErrors | app/Http/Requests/Api/UpdateCVRequest.php:73-120 | `DateRangeKey(sec, i)` is reported iff entry `i` of `sec` offends, in the order educations, experiences, projects; a missing or null `user_data` reports none. |
| CVValidation.EqualDatesNeverReported | app/Http/Requests/Api/UpdateCVRequest.php:82 | Equal `from` and `to` are never reported: the comparison is strict. |
| CVValidation.CurrentEntryExempt | app/Http/Requests/Api/UpdateCVRequest.php:93-110 | A current experience or project is not reported, whatever its dates: the experiences loop skips it, and so does the projects loop. |
| CVValidation.SingleReversedExperience | app/Http/Requests/Api/UpdateCVRequest.php:93-104 | A `user_data` holding only one reversed, non-current experience yields exactly one date error, at index 0. |
| CVValidation.ReversedExperienceReported | app/Http/Requests/Api/UpdateCVRequest.php:93-104 | Example: an experience from 2024-06 to 2024-01 yields exactly one error, at `user_data.experiences.0.to`. |
| CVValidation.ProficiencyErrors | app/Http/Requests/Api/UpdateCVRequest.php:64 | Language entry `i` is reported iff its level is missing or outside 1..5. |
| CVValidation.UpdateTopErrors | app/Http/Requests/Api/UpdateCVRequest.php:23-27 | Exactly the failing top-level rules are reported. `name` fails iff it is null or longer than 255. `language` fails iff it is null or not `en`, `ar` or `tr`. `sections_order` and `user_data` each fail iff they are null, the one value that `sometimes` followed by `array` refuses. |
| CVValidation.ListIsNull | app/Http/Requests/Api/UpdateCVRequest.php:37-65 | Each of the six lists of `user_data` is `sometimes` then `array`: a missing list or any array passes, and a null one fails. |
| CVValidation.NullListErrors | app/Http/Requests/Api/UpdateCVRequest.php:37-65 | For the lists named, the key of a list is reported iff that list is null, and no other key is. |
| CVValidation.ListRuleErrors | app/Http/Requests/Api/UpdateCVRequest.php:37-66 | The list rules of a given `user_data` report exactly the null lists and the language entries whose level is missing or outside 1..5, and nothing else. |
| CVValidation.UpdateUserDataErrors | app/Http/Requests/Api/UpdateCVRequest.php:28-66 | Inside a given `user_data`, exactly the failing rules are reported. `firstName`, `lastName` and `jobTitle` fail iff null or longer than 255. Each of the six lists fails iff it is null. Language entry `i` fails iff its level is missing or outside 1..5. |
| CVValidation.UpdateRuleErrors | app/Http/Requests/Api/UpdateCVRequest.php:20-68 | A key is reported iff its rule fails: a top-level rule (including a null `sections_order`), or a rule inside `user_data` when `user_data` is an array (including a null `jobTitle` or a null list). |
| CVValidation.UpdateErrors | app/Http/Requests/Api/UpdateCVRequest.php:20-120 | An update reports a non-date key iff its rule fails, and `DateRangeKey(sec, i)` iff entry `i` of `sec` offends. |
| CVValidation.LanguageEnumeration | app/Http/Requests/Api/UpdateCVRequest.php:24 | A given language is rejected iff it is not `en`, `ar` or `tr`. |
| CVValidation.UpdateNullChecks | app/Http/Requests/Api/UpdateCVRequest.php:25-65 | An update reports a list of `user_data` iff that list is null, `jobTitle` iff it is null or longer than 255, and `sections_order` iff it is null. |
| CVValidation.PrintIdErrors | app/Http/Requests/Api/PrintCVRequest.php:23-24 | A given `profile_id` fails iff no profile has it; `template_id` fails iff it is missing, null or names no template. |
| CVValidation.PrintNameErrors | app/Http/Requests/Api/PrintCVRequest.php:26-29 | `user_data` fails iff it is null, or missing or empty with no `profile_id`. Once it is non-empty, first and last name must be non-blank strings of at most 255. A given `user_data` reports `jobTitle` iff it is null or longer than 255. |
| CVValidation.PrintListErrors | app/Http/Requests/Api/PrintCVRequest.php:36-65 | When `user_data` is an array, each list is reported iff it is null, and language entry `i` iff its level is missing or outside 1..5; otherwise nothing is. |
| CVValidation.PrintUserDataErrors | app/Http/Requests/Api/PrintCVRequest.php:26-65 | Exactly the failing `user_data` rules are reported: the rule on `user_data` itself, the names and `jobTitle`, the six lists (each failing iff null) and the levels. |
| CVValidation.PrintHookErrors | app/Http/Requests/Api/PrintCVRequest.php:72-135 | The hook adds `template_id` iff the key is present and the template is missing or inactive. It adds `profile_id` iff an authenticated caller names a profile that exists under another user. Then it adds exactly the date-range errors, and no other key. |
| CVValidation.PrintErrors | app/Http/Requests/Api/PrintCVRequest.php:20-135 | A print request collects exactly the rule errors and the hook errors. `user_data` is reported exactly when it is null, or when it is missing or empty and no `profile_id` is given. |
| CVValidation.GuestSkipsOwnership | app/Http/Requests/Api/PrintCVRequest.php:84-89 | For a guest, `profile_id` is reported only when the profile does not exist. |
| CVValidation.ForeignProfileRefused | app/Http/Requests/Api/PrintCVRequest.php:84-89 | An authenticated caller naming another user's profile gets an error at `profile_id`. |
| CVValidation.InactiveTemplateRefused | app/Http/Requests/Api/PrintCVRequest.php:76-81 | An existing but inactive template gets an error at `template_id`. |
| CVValidation.UserDataRequiredWithoutProfile | app/Http/Requests/Api/PrintCVRequest.php:26 | Without a `profile_id`, `user_data` is reported iff it is not a non-empty array. |
| CVValidation.SameDateChecks | app/Http/Requests/Api/PrintCVRequest.php:91-133 | Both requests report exactly the same date-range keys for the same `user_data`. |
| CVValidation.PrintUserDataKey | app/Http/Requests/Api/PrintCVRequest.php:20-135 | A key other than the ids and the date ranges is reported iff a `user_data` rule fails: the hook never adds one. |
| CVValidation.PrintListNullCheck | app/Http/Requests/Api/PrintCVRequest.php:36-65 | A print request reports a given list of `user_data` iff that list is null. |
| CVValidation.PrintNullChecks | app/Http/Requests/Api/PrintCVRequest.php:29-65 | A print request reports a list of `user_data` iff that list is null, and `jobTitle` iff it is null or longer than 255; the hook adds neither. |
| CVValidation.SameListChecks | app/Http/Requests/Api/PrintCVRequest.php:29-65 | For the same `user_data`, both requests report the same null lists, and agree on `jobTitle`. |
| CVPDFService.ViewSlug | app/Services/CVPDFService.php:35-36 | The slug has the name's length, each space becomes `-`, each ASCII capital its lower case, every other character is kept; no space or capital remains. |
| CVPDFService.SlugIdempotent | app/Services/CVPDFService.php:35-36 | Taking the slug of a slug changes nothing. |
| CVPDFService.SlugOfSlug | app/Services/CVPDFService.php:35-36 | A name with no space and no capital is its own slug. |
| CVPDFService.ModernProfessionalSlug | app/Services/CVPDFService.php:35-36 | Example: the seeded name `Modern Professional` becomes the view name `modern-professional`. |
| CVPDFService.ViewPath | app/Services/CVPDFService.php:36 | The view path is `templates.cv.` followed by the slug. |
| CVPDFService.DownloadFilename | app/Services/CVPDFService.php:66-67 | The file name is first name (or `CV`), `_`, last name (or `Resume`), `.pdf`. |
| CVPDFService.FilenameOfProfile | app/Services/CVPDFService.php:66-67 | A row with no `info` downloads as `CV_Resume.pdf`; otherwise the stored names are used, null names falling back to the defaults. |
| CVPDFService.ClassifyFailure | app/Services/CVPDFService.php:85-113 | A view error becomes `View error - ` plus its message; an invalid format becomes `Invalid PDF format - ` plus its message; a process failure becomes the fixed Chrome/Node text; anything else is rethrown unchanged. |
| CVPDFService.ClassificationRecoversKind | app/Services/CVPDFService.php:85-113 | Different failure kinds never produce the same error, and only a process failure loses its message. |
| CVPDFService.GeneratePdf | app/Services/CVPDFService.php:32-114 | A missing view fails first with the fixed text. Otherwise the call succeeds iff the renderer does. It downloads when `returnUrl` is false and stores under `cvs/cv_<id>.pdf` when true. Failures are classified as above. |
| CVPDFService.MissingViewFailsFirst | app/Services/CVPDFService.php:39-47 | With the view missing, neither the Profile nor the renderer affects the result. |
| CVPDFService.StoredPathShape | app/Services/CVPDFService.php:73-75 | A stored file lies under `cvs/`, is named `cv_…` and ends in `.pdf`. |
| CVPDFService.CreateTemporaryProfile | app/Services/CVPDFService.php:119-135 | The intended temporary Profile: no id, and the given owner, name, language and order; its columns are exactly the mapper's output, null where the mapper omitted a key. |
| CVPDFService.TemporaryProfileDefaults | app/Services/CVPDFService.php:119-135 | By default the temporary Profile is a guest CV named `CV` in English. |
| CVPDFService.CreateTemporaryProfileAsWritten | app/Services/CVPDFService.php:119-135 | As written, `new Profile([...])` mass-assigns: the unsaved Profile keeps the owner and the mapper's columns, but its name, language and order are null whatever was passed. |
| CVPDFService.TemporaryProfileIsAssignment | app/Services/CVPDFService.php:119-135 | The intended temporary Profile is the attribute array assigned key by key. The written one differs from it in exactly `name`, `language` and `sections_order`. |
| CVPDFService.PageDirection | resources/views/templates/cv/modern-professional.blade.php:2 | The CV page is right to left exactly when the language is `ar`; a null language counts as `en`. |
| CVPDFService.TemporaryProfileLosesLanguage | app/Services/CVPDFService.php:119-135 | An Arabic temporary CV renders left to right as written and right to left as intended, for every `user_data`, owner, name and order. |
| CVController.ApplyUpdate | app/Http/Controllers/Api/CVController.php:117-147 | Name, language and order change only when set, to the sent value. With `user_data`: `info` is replaced iff it is non-empty, and each list is replaced iff it was set. Everything else, id and owner included, is kept. |
| CVController.UpdateWipesInfo | app/Http/Controllers/Api/CVController.php:128-131 | A non-empty `user_data` with no personal key overwrites the stored names and contacts with nulls. |
| CVController.EmptyUserDataKeepsColumns | app/Http/Controllers/Api/CVController.php:126-147 | An empty `user_data` changes no column. |
| CVController.UpdateIdempotent | app/Http/Controllers/Api/CVController.php:117-147 | Applying the same update twice stores what applying it once does. |
| CVController.UpdateAssignsDirectly | app/Http/Controllers/Api/CVController.php:117-147 | The merge assigns the patch of set keys directly. The repository's `fill` would give the same row except that `name`, `language` and `sections_order` keep their stored values, so a new name is lost that way. |
| CVController.FullUpdateEchoes | app/Http/Controllers/Api/CVController.php:126-155 | An update carrying a full response-shaped `user_data` is answered with that same `user_data`. |
| CVController.Update | app/Http/Controllers/Api/CVController.php:102-155 | A CV the caller does not own, or that does not exist, is answered 404 and nothing is saved. Otherwise the merged row keeps its id and owner and is returned with 200. |
| CVController.HandleUpdate | app/Http/Requests/Api/BaseFormRequest.php:15-25 | Validation errors are answered 422 before the lookup; 404 is answered iff the request is valid and the CV is not the caller's. |
| CVController.NullValuesRefusedOnUpdate | app/Http/Requests/Api/UpdateCVRequest.php:25-65 | A null `sections_order`, `jobTitle` or list is answered 422 and saves nothing, whether or not the CV exists. |
| CVController.GenericFailure | app/Http/Controllers/Api/CVController.php:459-474 | Production answers 500 with a fixed support text; otherwise the exception message is shown. |
| CVController.RenderResponse | app/Http/Controllers/Api/CVController.php:426-475 | Only a rendered PDF is a download, under the given name. A view error, a process failure or (on the guest path only) an invalid format get their own 500 texts. Everything else goes to the generic branch. |
| CVController.ProductionHidesDetail | app/Http/Controllers/Api/CVController.php:468-474 | In production, unclassified failures with different messages get the same response. |
| CVController.DevelopmentShowsDetail | app/Http/Controllers/Api/CVController.php:468-474 | Outside production, different messages give different responses. |
| CVController.RenderDownload | app/Http/Controllers/Api/CVController.php:404-438 | A missing view is answered 500 before rendering. Otherwise the renderer's outcome is mapped, with the controller's page options. The file is named from the response's names. The answer is always a PDF or a 500. |
| CVController.ActiveTemplateFor | app/Http/Controllers/Api/CVController.php:396-402 | Only an active template with the given id is used; a missing or null id finds none. |
| CVController.GeneratePdfFromRequest | app/Http/Controllers/Api/CVController.php:481-595 | A missing or inactive template is answered 404. Otherwise the guest's temporary CV is rendered, with the invalid-format branch. |
| CVController.GuestProfile | app/Http/Controllers/Api/CVController.php:488-500 | The intended guest CV: no id and no owner, named `CV` and in English unless sent otherwise, holding the mapper's output. |
| CVController.Store | app/Http/Controllers/Api/CVController.php:39-79 | The intended `store`: a guest sending `template_id` gets the guest PDF path and nothing is created. Otherwise a row is created with the sent name and answered 201. Its owner is the caller, else the sent `user_id`. Its language defaults to `en`, and its columns are exactly the mapper's output, null where omitted. |
| CVController.StoreAttributes | app/Http/Controllers/Api/CVController.php:60-71 | The array passed to `Profile::create` holds every key: the owner, the name, the language defaulting to `en`, the order, and the mapper's six columns, null where absent. |
| CVController.StoreAssignsEveryKey | app/Http/Controllers/Api/CVController.php:60-71 | The intended `store` row is that array assigned key by key under the new id. |
| CVController.StoreAsWritten | app/Http/Controllers/Api/CVController.php:39-79 | As written: the guest PDF path is unchanged; otherwise the row is `Profile::create` of the array, 201 when stored and a 500 server error when refused. |
| CVController.StoreAsWrittenFails | app/Http/Controllers/Api/CVController.php:60-71 | Every non-guest store as written is a 500 and stores nothing, while the intended `store` answers 201 with the sent name. |
| CVController.StoreDefaults | app/Http/Controllers/Api/CVController.php:60-71 | An authenticated store with no language and no educations stores `en` and a null educations list under the caller. |
| CVController.PrintProfileFor | app/Http/Controllers/Api/CVController.php:363-393 | A truthy `profile_id` is looked up among the caller's CVs when authenticated, and among all CVs for a guest. Otherwise a temporary CV is built from `user_data` under the caller. |
| CVController.Print | app/Http/Controllers/Api/CVController.php:357-476 | A missing profile is answered 404 first, then a missing or inactive template 404. Then comes the view and render path, without the invalid-format branch. |
| CVController.PrintFailureOrder | app/Http/Controllers/Api/CVController.php:373-475 | The answer is 404 iff the profile or the template is missing. A missing view after both is answered with the view text. A PDF is sent only after every check passed, under the Profile's file name. Every answer is 404, 500 or a PDF. |
| CVController.HandlePrint | app/Http/Requests/Api/BaseFormRequest.php:15-25 | Any validation error is answered 422 before the action, and only a validation error is answered 422. A 404 means the request was valid but the profile or the active template was not found. A valid request never has a null `user_data`. |
| CVController.NullValuesRefusedOnPrint | app/Http/Requests/Api/PrintCVRequest.php:29-65 | A print request whose `user_data` holds a null `jobTitle` or a null list is answered 422, whatever CV and template it names. |
| CVController.ForeignProfileIs422 | app/Http/Requests/Api/PrintCVRequest.php:84-89 | An authenticated caller printing another user's CV is answered 422, not 404. |
| CVController.GuestPrintsAnyProfile | app/Http/Controllers/Api/CVController.php:363-371 | A guest naming an existing CV id gets that CV, whoever owns it. |
| CVController.InvalidFormatOnlyOnGuestPath | app/Http/Controllers/Api/CVController.php:557-564 | An invalid-format failure gets its own text on the guest path and the generic text on `print`. |
| ProfilePreview.SelectTemplate | app/Http/Controllers/ProfilePreviewController.php:37-60 | The chosen template is always active. A truthy id picks the active template with that id, or fails with `Template not found or inactive`. Without one, the first active default is chosen, else the first active template, else `No template available`. |
| ProfilePreview.Preview | app/Http/Controllers/ProfilePreviewController.php:25-76 | A missing profile aborts 404 first, then a failed template choice, then a missing view (`Template view '<path>' not found`). Otherwise the view is shown with the formatted profile. |
| ProfilePreview.MissingProfileFirst | app/Http/Controllers/ProfilePreviewController.php:28-32 | With the profile missing, neither the ids, the templates nor the views matter. |
| ProfilePreview.QueryTakesPrecedence | app/Http/Controllers/ProfilePreviewController.php:35 | A query `template_id` makes the row's own `template_id` irrelevant. |
| ProfilePreview.ExplicitIdNoFallback | app/Http/Controllers/ProfilePreviewController.php:37-45 | An explicit id naming an inactive template fails, with no fallback to the default. |
| ProfilePreview.DefaultPreferred | app/Http/Controllers/ProfilePreviewController.php:47-50 | When an active default exists it is chosen; an id of 0 behaves like no id. |
| ProfilePreview.FallbackToFirstActive | app/Http/Controllers/ProfilePreviewController.php:52-54 | With no active default, the first active template is chosen. |
| TemplateForm.NewTemplate | app/Filament/Resources/Templates/Schemas/TemplateForm.php:29-35 | A new template is active and not the default unless changed. |
| TemplateForm.UnsetOtherDefaults | app/Filament/Resources/Templates/Schemas/TemplateForm.php:36-45 | Only `is_default` is written. Unchecking writes nothing. Checking clears the flag on every template except the edited record. |
| TemplateForm.SaveDefault | app/Filament/Resources/Templates/Schemas/TemplateForm.php:36-45 | After the hook and the save of a checked record, a template is default iff it is that record. |
| TemplateForm.AtMostOneDefault | app/Filament/Resources/Templates/Schemas/TemplateForm.php:39-43 | With unique ids, at most one template is default after saving. |
| TemplateForm.CreateAsDefault | app/Filament/Resources/Templates/Schemas/TemplateForm.php:39-43 | Creating a default template leaves it as the only default. |
| TemplateForm.ToggleOnThenOffLosesDefault | app/Filament/Resources/Templates/Schemas/TemplateForm.php:37-43 | Once the hook has run for a checked box, running it again for the unchecked box restores nothing: no template other than the record is left default. |
| TemplateForm.ClearingKeepsActive | app/Filament/Resources/Templates/Schemas/TemplateForm.php:43 | Clearing defaults changes no active flag, so the preview still finds an active template. |
| TemplateForm.NewTemplateServesPreview | app/Filament/Resources/Templates/Schemas/TemplateForm.php:29-31 | A template added with the defaults is the preview's choice when no other template is active. |
| PrintProfile.Mount | app/Filament/Resources/Profiles/Pages/PrintProfile.php:30-39 | The page opens with the record's name and owner and no template chosen. |
| PrintProfile.FailureNotice | app/Filament/Resources/Profiles/Pages/PrintProfile.php:120-127 | A failure is shown as `PDF Generation Failed` with the exception's message appended. |
| PrintProfile.GeneratePdf | app/Filament/Resources/Profiles/Pages/PrintProfile.php:75-129 | A falsy template id stops with `Template Required`, then a missing or inactive template with `Template Not Found`. Otherwise the service runs in URL mode, and the page redirects to the stored file iff the service succeeds. |
| PrintProfile.MountedPageNeedsTemplate | app/Filament/Resources/Profiles/Pages/PrintProfile.php:30-90 | Right after opening, generating asks for a template whatever the tables, views and renderer. |
| PrintProfile.InactiveTemplateSkipsService | app/Filament/Resources/Profiles/Pages/PrintProfile.php:92-104 | An inactive template stops before the service: views and renderer do not matter. |
| PrintProfile.SuccessIsStoredFile | app/Filament/Resources/Profiles/Pages/PrintProfile.php:111 | A successful run redirects to a file stored by the service in URL mode. |
| PrintProfile.MissingViewNotice | app/Filament/Resources/Profiles/Pages/PrintProfile.php:120-127 | A missing view is shown to the admin with the service's view text. |

## Findings

| source | as written | input that shows it | evidently intended | confidence | as-written member | corrected member |
|---|---|---|---|---|---|---|
| app/Http/Controllers/Api/CVController.php:60-71 | `Profile::create([...'name' => ..., 'language' => ..., 'sections_order' => ...])` mass-assigns, and `Profile::$fillable` omits those three keys, so the insert has no `name`; the `profiles` table gives `name` no default | any store that is not the guest PDF path, e.g. `{"name": "My CV", "user_data": {}}` | the row stores the sent name, language (default `en`) and order, answered 201 | medium, not executed (the database's refusal of a missing `name` is assumed) | CVController.StoreAsWrittenFails | CVController.StoreAssignsEveryKey |
| app/Services/CVPDFService.php:119-135 | `new Profile([...])` mass-assigns, so the temporary Profile's name, language and order are null; the same holds for the controller's temporary Profiles at CVController.php lines 381 and 489 | `createTemporaryProfile($userData, null, 'CV', 'ar')`: the view reads a null language as `en` and lays the page out left to right | the temporary Profile carries the passed name, language and order, so an Arabic CV is laid out right to left | high, not executed | CVPDFService.TemporaryProfileLosesLanguage | CVPDFService.TemporaryProfileIsAssignment |

## Left out

- The private mapper copies in `CVController` (lines 180-352) and the private `formatProfileResponse` of `PrintProfile` (lines 131-223) repeat `CVDataMapper` line for line. They are modelled by the same functions, `CVDataMapper.Inbound`, `CVDataMapper.Outbound` and `CVDataMapper.FormatProfileResponse`.
- PDF rendering, Blade views, Chromium, `uniqid`, `storage_path`, `mkdir`, `Storage::url` and logging are external effects. The renderer, the set of views and the unique id are parameters. A stored file is identified by its path on the public disk, not its URL.
- The PDF library renders when the download response is sent. The model treats every render failure as raised inside the controller's `try`, which is what the `catch` chain was written for.
- Translation with `__()`: messages are modelled as their keys plus the literal text appended to them. `messages.pdf_generation_failed` and `messages.template_not_found_or_inactive` have no entry in the English language file.
- Eloquent behaviour other than `$fillable`: timestamps, `created_at`/`updated_at` in responses, and soft deletes. `$fillable` is modelled in `ProfileModel`; the casts are modelled only as far as the next line says.
- CVDataMapper.FormatProfileResponse: `Profile::casts()` (app/Models/Profile.php lines 24-37) decodes the six JSON columns but not `sections_order`. A row loaded from the database therefore returns `sections_order` as raw JSON text, while the model holds it as a decoded list of strings. The response copies the list as held.
- CVController.Store: models the evidently intended `store`, which keeps the sent `name`, `language` and `sections_order`. As written, mass assignment drops all three, and the insert is refused for want of a `name` (see Findings and `CVController.StoreAsWritten`).
- CVController.GuestProfile: models the intended temporary Profile of `generatePdfFromRequest`. As written, `new Profile([...])` leaves its name, language and order null, as `CVPDFService.CreateTemporaryProfileAsWritten` shows for the service.
- CVController.PrintProfileFor: the temporary Profile of `print` is likewise the intended one; as written its name, language and order are null.
- CVPDFService.CreateTemporaryProfile: models the intended Profile with the passed name, language and order; the written code loses them (see Findings).
- CVController.ServerError: Laravel's handler shows the exception text instead of `Server Error` when debugging is on; only the production text is modelled.
- ProfileModel.Insert: a refused insert is modelled by `name` alone. Other column constraints, such as the length of `language`, are not modelled.
- Keys of `user_data` other than the modelled ones, and PHP's "undefined array key" behaviour for keys a validated request must hold.
- The rule engine beyond the enumerations, bounds and null checks listed above: `email` (including its refusal of a null `email`), `url`, `date`, `date_format`, `boolean` (including the refusal of a null `current`), `string` on the entries of `sections_order` (the model holds them as strings), `max:10` on `language` (implied by its enumeration), `exists` beyond id lookup, the `max:500` and `max:50` fields, and the `required_with` rules on list entries. Dates are assumed to be valid `Y-m` strings, so `strtotime` is a lexicographic comparison.
- The grouping of errors by key in the 422 body: errors are a sequence of keys in the order they are added.
- Middleware that trims strings and turns empty strings into null. Query strings such as `""` and `"0"` for `template_id` are modelled as the id 0.
- ProfilePreview.Preview: the row's own `template_id` is a parameter. No migration in the repository creates that column, so in practice it is always null.
- `StoreCVRequest` is not part of this model. `CVController.Store` takes an already validated request and reads `name` as null when missing.
- `CVController` `index`, `show` and `destroy`, and `CVRepository` `create` and `delete`: plain lookups and persistence with no rule of their own. `CVRepository::create` is `Profile::create`, modelled as `ProfileModel.Create`.
- Routes, authentication, guards and the admin panel outside the template form and the "Print" page.
- TemplateForm.ToggleOnThenOffLosesDefault: the `is_default` checkbox is not `->live()`, so its hook runs only when a request carries the checked state to the server. Checking and then unchecking the box with no request in between runs no hook, and the other defaults stay. The lemma covers only the case where the hook ran in between.
- CVController.Print: `print` is modelled as a controller action, but `routes/api.php` registers no route for it, so no HTTP request reaches it.
- CVController.GenericFailure: `app()->environment('production')` is a boolean parameter.

=== FILE: collections.dfy ===
/** List operations the source gets from PHP and the query builder:
    `array_map`, `where(...)->get()` and `where(...)->first()`. */
module Collections {
  import opened Wrappers

  /** `array_map($f, $xs)` on a list: same length, same order. */
  function ArrayMap<A, B>(f: A -> B, xs: seq<A>): (ys: seq<B>)
    ensures |ys| == |xs|
    ensures forall i :: 0 <= i < |xs| ==> ys[i] == f(xs[i])
  {
    seq(|xs|, i requires 0 <= i < |xs| => f(xs[i]))
  }

  /** Mapping forward then back gives the list back when `g` undoes `f` on
      every element of it. */
  lemma ArrayMapInverse<A, B>(f: A -> B, g: B -> A, xs: seq<A>)
    requires forall i :: 0 <= i < |xs| ==> g(f(xs[i])) == xs[i]
    ensures ArrayMap(g, ArrayMap(f, xs)) == xs
  {
  }

  /** `where($p)->get()`: the rows satisfying `p`, in table order, each as
      many times as the table holds it. */
  function Where<T(!new)>(xs: seq<T>, p: T -> bool): (ys: seq<T>)
    ensures |ys| <= |xs|
    ensures forall y :: y in ys ==> p(y)
    ensures forall x :: multiset(ys)[x] == (if p(x) then multiset(xs)[x] else 0)
  {
    if |xs| == 0 then []
    else
      assert xs == [xs[0]] + xs[1..];
      (if p(xs[0]) then [xs[0]] else []) + Where(xs[1..], p)
  }

  /** `where($p)->first()`: the position of the first row satisfying `p`. */
  function FirstWhere<T>(xs: seq<T>, p: T -> bool): (r: Option<nat>)
    ensures r.Some? ==> r.value < |xs| && p(xs[r.value])
    ensures r.Some? ==> forall j :: 0 <= j < r.value ==> !p(xs[j])
    ensures r.None? ==> forall j :: 0 <= j < |xs| ==> !p(xs[j])
  {
    if |xs| == 0 then None
    else if p(xs[0]) then Some(0)
    else
      match FirstWhere(xs[1..], p)
      case None => None
      case Some(k) => Some(k + 1)
  }

  /** `where($p)->first()` as the row itself. */
  function First<T>(xs: seq<T>, p: T -> bool): (r: Option<T>)
    ensures r.Some? ==> r.value in xs && p(r.value)
    ensures r.None? <==> forall j :: 0 <= j < |xs| ==> !p(xs[j])
    ensures r.Some? ==> exists i :: 0 <= i < |xs| && xs[i] == r.value &&
                                    forall j :: 0 <= j < i ==> !p(xs[j])
  {
    match FirstWhere(xs, p)
    case None => None
    case Some(i) => Some(xs[i])
  }

  /** Two conditions that agree on every row select the same rows. */
  lemma {:induction false} WhereAgree<T(!new)>(xs: seq<T>, p: T -> bool, q: T -> bool)
    requires forall i :: 0 <= i < |xs| ==> p(xs[i]) == q(xs[i])
    ensures Where(xs, p) == Where(xs, q)
  {
    if |xs| > 0 {
      WhereAgree(xs[1..], p, q);
    }
  }
}

=== FILE: cv_controller.dfy ===
/** The JSON API controller for CVs (`CVController`): `store`, `update`,
    `print` and the guest PDF path of `store`. The request objects arrive
    after their form request has run; `HandleUpdate` and `HandlePrint`
    put the validation step in front of the action, as the framework does. */
module CVController {
  import opened Wrappers
  import opened Shapes
  import opened ErrorPaths
  import opened CVDataMapper
  import opened CVRepository
  import opened ProfileModel
  import opened CVValidation
  import opened CVPDFService
  import MapperRoundTrip

  /** A response message: the key given to `__()` and the literal text
      appended to its translation. */
  datatype Message = Message(key: string, suffix: string)

  /** The responses of the controller. `Success` and `Failed` are the JSON
      envelopes of `successResponse` and `errorResponse`. */
  datatype Response =
    | Success(status: int, message: Message, result: Option<ProfileResponse>)
    | Failed(status: int, message: Message, errors: seq<ErrorKey>)
    | PdfFile(pdf: seq<bv8>, filename: string)
  {
    function Status(): int {
      match this
      case Success(s, _, _) => s
      case Failed(s, _, _) => s
      case PdfFile(_, _) => 200
    }
  }

  const CvNotFound: Response := Failed(404, Message("messages.cv_not_found", ""), [])
  const TemplateUnavailable: Response :=
    Failed(404, Message("messages.template_not_found_or_inactive", ""), [])

  function ValidationFailed(errs: seq<ErrorKey>): Response {
    Failed(422, Message("messages.validation_failed", ""), errs)
  }

  /** `errorResponse(__('messages.pdf_generation_failed') . $suffix, 500)` */
  function PdfFailed(suffix: string): Response {
    Failed(500, Message("messages.pdf_generation_failed", suffix), [])
  }

  const ViewMissingSuffix: string := ": " + ViewMissingText

  // ---------------------------------------------------------------------
  // update
  // ---------------------------------------------------------------------

  /** `if (isset($mappedData[$key])) $profile->$key = $mappedData[$key]`. */
  function Override<T>(current: Option<T>, mapped: Option<T>): Option<T> {
    if mapped.Some? then mapped else current
  }

  /** The merge of `update`: a top-level key replaces its column only when
      set, and a mapped column only when the mapper produced it. */
  function ApplyUpdate(p: Profile, r: UpdateRequest): (q: Profile)
    ensures q.id == p.id && q.userId == p.userId
    ensures r.name.Given? ==> q.name == Some(r.name.value)
    ensures !r.name.Given? ==> q.name == p.name
    ensures r.language.Given? ==> q.language == Some(r.language.value)
    ensures !r.language.Given? ==> q.language == p.language
    ensures r.sectionsOrder.Given? ==> q.sectionsOrder == Some(r.sectionsOrder.value)
    ensures !r.sectionsOrder.Given? ==> q.sectionsOrder == p.sectionsOrder
    ensures !r.userData.Given? ==> Columns(q) == Columns(p)
    ensures r.userData.Given? ==>
              var u := r.userData.value;
              && (u.IsEmpty() ==> q.info == p.info)
              && (!u.IsEmpty() ==> q.info == Inbound(u).info)
              && (u.educations.IsSet() ==> q.educations == Inbound(u).educations)
              && (!u.educations.IsSet() ==> q.educations == p.educations)
              && (u.experiences.IsSet() ==> q.experiences == Inbound(u).experiences)
              && (!u.experiences.IsSet() ==> q.experiences == p.experiences)
              && (u.projects.IsSet() ==> q.projects == Inbound(u).projects)
              && (!u.projects.IsSet() ==> q.projects == p.projects)
              && (u.languages.IsSet() ==> q.languages == Inbound(u).languages)
              && (!u.languages.IsSet() ==> q.languages == p.languages)
              && (u.interests.IsSet() ==> q.interests == Inbound(u).interests)
              && (!u.interests.IsSet() ==> q.interests == p.interests)
  {
    var q := p.(name := if r.name.Given? then Some(r.name.value) else p.name,
                language := if r.language.Given? then Some(r.language.value) else p.language,
                sectionsOrder := if r.sectionsOrder.Given? then Some(r.sectionsOrder.value) else p.sectionsOrder);
    if r.userData.Given? then
      var m := Inbound(r.userData.value);
      q.(info := Override(q.info, m.info),
         interests := Override(q.interests, m.interests),
         languages := Override(q.languages, m.languages),
         experiences := Override(q.experiences, m.experiences),
         projects := Override(q.projects, m.projects),
         educations := Override(q.educations, m.educations))
    else q
  }

  /** A non-empty `user_data` without personal keys still replaces `info`,
      wiping the stored names and contact details. */
  lemma UpdateWipesInfo(p: Profile, r: UpdateRequest)
    requires r.userData.Given? && !r.userData.value.IsEmpty() && r.userData.value.NoPersonalKeys()
    ensures ApplyUpdate(p, r).info ==
              Some(Info(None, None, None, None, None, None, None, None, None, r.userData.value.skills.OrNull()))
  {
  }

  /** An empty `user_data` leaves every column as it was. */
  lemma EmptyUserDataKeepsColumns(p: Profile, r: UpdateRequest)
    requires r.userData == Given(EmptyUserData)
    ensures Columns(ApplyUpdate(p, r)) == Columns(p)
  {
  }

  /** Sending the same update twice stores the same row as sending it once. */
  lemma UpdateIdempotent(p: Profile, r: UpdateRequest)
    ensures ApplyUpdate(ApplyUpdate(p, r), r) == ApplyUpdate(p, r)
  {
  }

  /** The attribute array `update` assigns, as a `fill` patch: an unset key
      is left out. */
  function PatchOf(r: UpdateRequest): ProfilePatch {
    var m := if r.userData.Given? then Inbound(r.userData.value) else MappedData(None, None, None, None, None, None);
    ProfilePatch(Absent, SetOnly(r.name.OrNull()), SetOnly(r.language.OrNull()),
                 SetOnly(r.sectionsOrder.OrNull()), SetOnly(m.info), SetOnly(m.interests),
                 SetOnly(m.languages), SetOnly(m.experiences), SetOnly(m.projects), SetOnly(m.educations))
  }

  function SetOnly<T>(o: Option<T>): Slot<T> {
    if o.Some? then Given(o.value) else Absent
  }

  /** The controller writes each attribute directly rather than through
      `fill`: its merge is the direct assignment of that patch. The
      repository's `update` would give the same row except that `name`,
      `language` and `sections_order`, which `$fillable` leaves out, would
      keep their stored values. */
  lemma UpdateAssignsDirectly(p: Profile, r: UpdateRequest)
    ensures ApplyUpdate(p, r) == Assign(p, PatchOf(r))
    ensures CVRepository.Update(p, PatchOf(r)) ==
              ApplyUpdate(p, r).(name := p.name, language := p.language, sectionsOrder := p.sectionsOrder)
    ensures r.name.Given? && p.name != Some(r.name.value) ==>
              CVRepository.Update(p, PatchOf(r)) != ApplyUpdate(p, r)
  {
  }

  /** An update carrying the full response shape of a CV, every list
      non-empty, reads back as exactly the `user_data` it sent. */
  lemma FullUpdateEchoes(p: Profile, r: UpdateRequest)
    requires r.userData.Given?
    requires var u := r.userData.value;
             MapperRoundTrip.IsResponseShape(u) && u.AllPersonalKeys() &&
             u.educations.Given? && u.experiences.Given? && u.projects.Given? &&
             u.languages.Given? && u.interests.Given?
    ensures FormatProfileResponse(ApplyUpdate(p, r)).userData == r.userData.value
  {
    var u := r.userData.value;
    var q := ApplyUpdate(p, r);
    MapperRoundTrip.ApiRoundTrip(u, q.id, q.userId, q.name, q.language, q.sectionsOrder);
    assert q == NewProfile(q.id, q.userId, q.name, q.language, q.sectionsOrder, Inbound(u));
  }

  /** `update($request, $id)` for the authenticated user `user`, after
      validation: the row is looked up among the user's own profiles. The
      second component is the saved row. */
  function Update(ps: seq<Profile>, user: int, id: int, r: UpdateRequest): (out: (Response, Option<Profile>))
    ensures FindByIdForUser(ps, id, user).None? ==> out == (CvNotFound, None)
    ensures out.1.Some? <==> FindByIdForUser(ps, id, user).Some?
    ensures out.1.Some? ==>
              && out.1.value == ApplyUpdate(FindByIdForUser(ps, id, user).value, r)
              && out.1.value.id == Some(id) && out.1.value.userId == Some(user)
              && out.0 == Success(200, Message("messages.cv_updated", ""), Some(FormatProfileResponse(out.1.value)))
  {
    match FindByIdForUser(ps, id, user)
    case None => (CvNotFound, None)
    case Some(p) =>
      var q := ApplyUpdate(p, r);
      (Success(200, Message("messages.cv_updated", ""), Some(FormatProfileResponse(q))), Some(q))
  }

  /** The request as the client sends it: validation first, so a bad
      request is answered 422 even when the CV does not exist. */
  function HandleUpdate(ps: seq<Profile>, user: int, id: int, r: UpdateRequest): (out: (Response, Option<Profile>))
    ensures UpdateErrors(r) != [] ==> out == (ValidationFailed(UpdateErrors(r)), None)
    ensures UpdateErrors(r) == [] ==> out == Update(ps, user, id, r)
    ensures out.0.Status() == 422 <==> UpdateErrors(r) != []
    ensures out.0.Status() == 404 <==> UpdateErrors(r) == [] && FindByIdForUser(ps, id, user).None?
  {
    var errs := UpdateErrors(r);
    if errs != [] then (ValidationFailed(errs), None) else Update(ps, user, id, r)
  }

  /** An explicit null for `sections_order`, for `jobTitle` or for one of
      the six lists is refused with 422 before the CV is looked up. */
  lemma NullValuesRefusedOnUpdate(ps: seq<Profile>, user: int, id: int, r: UpdateRequest, l: UserList)
    requires || r.sectionsOrder.Null?
             || (r.userData.Given? && (r.userData.value.jobTitle.Null? || ListIsNull(r.userData.value, l)))
    ensures HandleUpdate(ps, user, id, r).0.Status() == 422
    ensures HandleUpdate(ps, user, id, r).1.None?
  {
    UpdateNullChecks(r);
    if r.sectionsOrder.Null? {
      assert SectionsOrderKey in UpdateErrors(r);
    } else if r.userData.value.jobTitle.Null? {
      assert JobTitleKey in UpdateErrors(r);
    } else {
      assert ListKey(l) in UpdateErrors(r);
    }
  }

  // ---------------------------------------------------------------------
  // Rendering a download (shared by print and the guest path of store)
  // ---------------------------------------------------------------------

  /** The options both controller paths give the PDF builder. */
  const ControllerOptions: PdfOptions :=
    PdfOptions("a4", [10, 10, 10, 10], ["--no-sandbox", "--disable-dev-shm-usage"])

  /** The generic `catch (\Exception $e)`: production hides the message. */
  function GenericFailure(message: string, production: bool): (resp: Response)
    ensures resp.Status() == 500
    ensures production ==> resp == PdfFailed(". Please contact support if this issue persists.")
    ensures !production ==> resp == PdfFailed(": " + message)
  {
    if production then PdfFailed(". Please contact support if this issue persists.")
    else PdfFailed(": " + message)
  }

  /** The `catch` chain around the render. `catchesFormat` says whether the
      chain has its own `InvalidFormat` branch: `generatePdfFromRequest`
      has one, `print` does not. */
  function RenderResponse(o: RenderOutcome, filename: string, catchesFormat: bool, production: bool): (resp: Response)
    ensures o.Rendered? <==> resp.PdfFile?
    ensures o.Rendered? ==> resp == PdfFile(o.pdf, filename)
    ensures !o.Rendered? ==> resp.Status() == 500
    ensures o.ViewFailed? ==> resp == PdfFailed(": View error - " + o.message)
    ensures o.ProcessFailed? ==> resp == PdfFailed(": " + ProcessFailedText)
    ensures o.FormatFailed? && catchesFormat ==> resp == PdfFailed(": Invalid PDF format - " + o.message)
    ensures o.FormatFailed? && !catchesFormat ==> resp == GenericFailure(o.message, production)
    ensures o.OtherFailure? ==> resp == GenericFailure(o.message, production)
  {
    match o
    case Rendered(pdf) => PdfFile(pdf, filename)
    case ViewFailed(m) => PdfFailed(": View error - " + m)
    case ProcessFailed(_) => PdfFailed(": " + ProcessFailedText)
    case FormatFailed(m) =>
      if catchesFormat then PdfFailed(": Invalid PDF format - " + m) else GenericFailure(m, production)
    case OtherFailure(m) => GenericFailure(m, production)
  }

  /** In production the response to an unclassified failure is the same
      whatever the exception said. */
  lemma ProductionHidesDetail(m1: string, m2: string, filename: string, catchesFormat: bool)
    ensures RenderResponse(OtherFailure(m1), filename, catchesFormat, true) ==
            RenderResponse(OtherFailure(m2), filename, catchesFormat, true)
    ensures RenderResponse(FormatFailed(m1), filename, false, true) ==
            RenderResponse(OtherFailure(m2), filename, false, true)
  {
  }

  /** Outside production the detail is shown, so different failures give
      different responses. */
  lemma DevelopmentShowsDetail(m1: string, m2: string, filename: string, catchesFormat: bool)
    requires m1 != m2
    ensures RenderResponse(OtherFailure(m1), filename, catchesFormat, false) !=
            RenderResponse(OtherFailure(m2), filename, catchesFormat, false)
  {
    var p := ": ";
    assert (p + m1)[|p|..] == m1 && (p + m2)[|p|..] == m2;
  }

  /** The download after a template was found: view check, then render. */
  function RenderDownload(profile: Profile, t: Template, views: set<string>,
                          render: RenderJob -> RenderOutcome, catchesFormat: bool, production: bool)
    : (resp: Response)
    ensures resp.PdfFile? || resp.Status() == 500
    ensures ViewPath(t.name) !in views ==> resp == PdfFailed(ViewMissingSuffix)
    ensures ViewPath(t.name) in views ==>
              resp == RenderResponse(render(RenderJob(ViewPath(t.name), FormatProfileResponse(profile), ControllerOptions)),
                                     DownloadFilename(Outbound(profile)), catchesFormat, production)
  {
    var viewPath := ViewPath(t.name);
    if viewPath !in views then PdfFailed(ViewMissingSuffix)
    else
      var cv := FormatProfileResponse(profile);
      RenderResponse(render(RenderJob(viewPath, cv, ControllerOptions)),
                     DownloadFilename(cv.userData), catchesFormat, production)
  }

  /** `Template::where('id', $templateId)->where('is_active', true)->first()`;
      a null or missing id matches nothing. */
  function ActiveTemplateFor(templateId: Slot<int>, ts: seq<Template>): (t: Option<Template>)
    ensures t.Some? ==> templateId.Given? && t.value.id == templateId.value && t.value.isActive && t.value in ts
    ensures templateId.Given? ==> t == FindActiveTemplate(ts, templateId.value)
  {
    if templateId.Given? then FindActiveTemplate(ts, templateId.value) else None
  }

  // ---------------------------------------------------------------------
  // store and its guest PDF path
  // ---------------------------------------------------------------------

  /** The keys `store` reads, after `StoreCVRequest` accepted them;
      `user_data` is the array or `[]` when missing. */
  datatype StoreRequest = StoreRequest(
    userId: Slot<int>,
    templateId: Slot<int>,
    name: Slot<string>,
    language: Slot<string>,
    sectionsOrder: Slot<seq<string>>,
    userData: UserData)

  /** `generatePdfFromRequest`: a guest's CV rendered without being saved. */
  function GeneratePdfFromRequest(r: StoreRequest, ts: seq<Template>, views: set<string>,
                                  render: RenderJob -> RenderOutcome, production: bool)
    : (resp: Response)
    ensures ActiveTemplateFor(r.templateId, ts).None? ==> resp == TemplateUnavailable
    ensures ActiveTemplateFor(r.templateId, ts).Some? ==>
              resp == RenderDownload(GuestProfile(r), ActiveTemplateFor(r.templateId, ts).value,
                                     views, render, true, production)
  {
    match ActiveTemplateFor(r.templateId, ts)
    case None => TemplateUnavailable
    case Some(t) => RenderDownload(GuestProfile(r), t, views, render, true, production)
  }

  /** The unsaved Profile of the guest path. */
  function GuestProfile(r: StoreRequest): (p: Profile)
    ensures p.id.None? && p.userId.None?
    ensures r.name.Absent? ==> p.name == Some("CV")
    ensures r.language.Absent? ==> p.language == Some("en")
    ensures Columns(p) == Inbound(r.userData)
  {
    CreateTemporaryProfile(r.userData, None, r.name.InputOr("CV"), r.language.InputOr("en"), r.sectionsOrder.OrNull())
  }

  /** `store`. `user` is the authenticated caller, `newId` the key the
      database assigns. The second component is the created row. */
  function Store(user: Option<int>, r: StoreRequest, newId: int, ts: seq<Template>, views: set<string>,
                 render: RenderJob -> RenderOutcome, production: bool)
    : (out: (Response, Option<Profile>))
    ensures user.None? && r.templateId.Present() ==>
              out == (GeneratePdfFromRequest(r, ts, views, render, production), None)
    ensures !(user.None? && r.templateId.Present()) ==> out.1.Some?
    ensures out.1.Some? ==>
              var p := out.1.value;
              && p.id == Some(newId)
              && p.userId == (if user.Some? then user else r.userId.OrNull())
              && p.name == r.name.OrNull()
              && p.language == Some(r.language.OrElse("en"))
              && p.sectionsOrder == r.sectionsOrder.OrNull()
              && Columns(p) == Inbound(r.userData)
              && out.0 == Success(201, Message("messages.cv_created", ""), Some(FormatProfileResponse(p)))
  {
    if user.None? && r.templateId.Present() then
      (GeneratePdfFromRequest(r, ts, views, render, production), None)
    else
      var userId := if user.Some? then user else r.userId.OrNull();
      var p := NewProfile(Some(newId), userId, r.name.OrNull(), Some(r.language.OrElse("en")),
                          r.sectionsOrder.OrNull(), Inbound(r.userData));
      (Success(201, Message("messages.cv_created", ""), Some(FormatProfileResponse(p))), Some(p))
  }

  /** The attribute array `store` passes to `Profile::create`: every key
      is present, null where the request and the mapper give nothing. */
  function StoreAttributes(user: Option<int>, r: StoreRequest): (a: ProfilePatch)
    ensures a.userId.Present() && a.name.Present() && a.language.Present() && a.sectionsOrder.Present()
    ensures a.info.Present() && a.interests.Present() && a.languages.Present()
    ensures a.experiences.Present() && a.projects.Present() && a.educations.Present()
    ensures a.userId.OrNull() == (if user.Some? then user else r.userId.OrNull())
    ensures a.name.OrNull() == r.name.OrNull()
    ensures a.language.OrNull() == Some(r.language.OrElse("en"))
    ensures a.sectionsOrder.OrNull() == r.sectionsOrder.OrNull()
    ensures var m := Inbound(r.userData);
            && a.info.OrNull() == m.info && a.interests.OrNull() == m.interests
            && a.languages.OrNull() == m.languages && a.experiences.OrNull() == m.experiences
            && a.projects.OrNull() == m.projects && a.educations.OrNull() == m.educations
  {
    var m := Inbound(r.userData);
    ProfilePatch(Assigned(if user.Some? then user else r.userId.OrNull()), Assigned(r.name.OrNull()),
                 Assigned(Some(r.language.OrElse("en"))), Assigned(r.sectionsOrder.OrNull()),
                 Assigned(m.info), Assigned(m.interests), Assigned(m.languages),
                 Assigned(m.experiences), Assigned(m.projects), Assigned(m.educations))
  }

  /** The row the intended `store` creates is that array assigned key by
      key, under the new id. */
  lemma StoreAssignsEveryKey(user: Option<int>, r: StoreRequest, newId: int, ts: seq<Template>, views: set<string>,
                             render: RenderJob -> RenderOutcome, production: bool)
    requires !(user.None? && r.templateId.Present())
    ensures Store(user, r, newId, ts, views, render, production).1 ==
              Some(Assign(BlankProfile, StoreAttributes(user, r)).(id := Some(newId)))
  {
  }

  /** The answer to an exception nothing catches, on a JSON request. */
  const ServerError: Response := Failed(500, Message("Server Error", ""), [])

  /** `store` as the code is written: the row goes through
      `Profile::create`, whose mass assignment drops `name`, `language`
      and `sections_order` before the insert. */
  function StoreAsWritten(user: Option<int>, r: StoreRequest, newId: int, ts: seq<Template>, views: set<string>,
                          render: RenderJob -> RenderOutcome, production: bool)
    : (out: (Response, Option<Profile>))
    ensures user.None? && r.templateId.Present() ==> out == Store(user, r, newId, ts, views, render, production)
    ensures !(user.None? && r.templateId.Present()) ==> out.1 == Create(StoreAttributes(user, r), newId)
    ensures !(user.None? && r.templateId.Present()) && out.1.None? ==> out.0 == ServerError
    ensures out.1.Some? ==> out.0 == Success(201, Message("messages.cv_created", ""), Some(FormatProfileResponse(out.1.value)))
  {
    if user.None? && r.templateId.Present() then
      (GeneratePdfFromRequest(r, ts, views, render, production), None)
    else
      match Create(StoreAttributes(user, r), newId)
      case None => (ServerError, None)
      case Some(p) => (Success(201, Message("messages.cv_created", ""), Some(FormatProfileResponse(p))), Some(p))
  }

  /** Every store that is not the guest PDF path fails as written, while
      the intended `store` answers 201 with the sent name. */
  lemma StoreAsWrittenFails(user: Option<int>, r: StoreRequest, newId: int, ts: seq<Template>, views: set<string>,
                            render: RenderJob -> RenderOutcome, production: bool)
    requires !(user.None? && r.templateId.Present())
    ensures StoreAsWritten(user, r, newId, ts, views, render, production) == (ServerError, None)
    ensures var out := Store(user, r, newId, ts, views, render, production);
            out.0.Status() == 201 && out.1.Some? && out.1.value.name == r.name.OrNull()
  {
    CreateNeverStores(StoreAttributes(user, r), newId);
  }

  /** A stored CV is in English unless a language was given, and every list
      the client did not send is stored as null. */
  lemma StoreDefaults(user: Option<int>, r: StoreRequest, newId: int, ts: seq<Template>, views: set<string>,
                      render: RenderJob -> RenderOutcome, production: bool)
    requires user.Some? && !r.language.Given? && !r.userData.educations.IsSet()
    ensures var p := Store(user, r, newId, ts, views, render, production).1;
            p.Some? && p.value.language == Some("en") && p.value.educations.None? &&
            p.value.userId == user
  {
  }

  // ---------------------------------------------------------------------
  // print
  // ---------------------------------------------------------------------

  /** The Profile `print` renders: the named one (among the caller's own
      when authenticated), or a temporary one from `user_data`. `None` when
      the named one is not found. */
  function PrintProfileFor(r: PrintRequest, user: Option<int>, ps: seq<Profile>): (p: Option<Profile>)
    requires !r.userData.Null?
    ensures TruthyId(r.profileId.OrNull()) && user.Some? ==>
              p == FindByIdForUser(ps, r.profileId.value, user.value)
    ensures TruthyId(r.profileId.OrNull()) && user.None? ==> p == FindById(ps, r.profileId.value)
    ensures !TruthyId(r.profileId.OrNull()) ==>
              p.Some? && p.value.id.None? && p.value.userId == user &&
              Columns(p.value) == Inbound(r.userData.OrElse(EmptyUserData))
  {
    if TruthyId(r.profileId.OrNull()) then
      var id := r.profileId.value;
      if user.Some? then FindByIdForUser(ps, id, user.value) else FindById(ps, id)
    else
      Some(CreateTemporaryProfile(r.userData.OrElse(EmptyUserData), user, r.name.InputOr("CV"),
                                  r.language.InputOr("en"), r.sectionsOrder.OrNull()))
  }

  /** `print($request)` after validation. A null `user_data` never gets
      here: the request's `array` rule rejects it. */
  function Print(r: PrintRequest, user: Option<int>, ps: seq<Profile>, ts: seq<Template>, views: set<string>,
                 render: RenderJob -> RenderOutcome, production: bool)
    : (resp: Response)
    requires !r.userData.Null?
    ensures PrintProfileFor(r, user, ps).None? ==> resp == CvNotFound
    ensures PrintProfileFor(r, user, ps).Some? && ActiveTemplateFor(r.templateId, ts).None? ==>
              resp == TemplateUnavailable
    ensures PrintProfileFor(r, user, ps).Some? && ActiveTemplateFor(r.templateId, ts).Some? ==>
              resp == RenderDownload(PrintProfileFor(r, user, ps).value, ActiveTemplateFor(r.templateId, ts).value,
                                     views, render, false, production)
  {
    match PrintProfileFor(r, user, ps)
    case None => CvNotFound
    case Some(profile) =>
      match ActiveTemplateFor(r.templateId, ts)
      case None => TemplateUnavailable
      case Some(t) => RenderDownload(profile, t, views, render, false, production)
  }

  /** The failure order of `print`: profile 404, then template 404, then
      missing view 500, then render failures 500; a PDF is sent only when
      every earlier step passed, under the download name of the Profile. */
  lemma PrintFailureOrder(r: PrintRequest, user: Option<int>, ps: seq<Profile>, ts: seq<Template>,
                          views: set<string>, render: RenderJob -> RenderOutcome, production: bool)
    requires !r.userData.Null?
    ensures var resp := Print(r, user, ps, ts, views, render, production);
            && (resp.Status() == 404 <==>
                  PrintProfileFor(r, user, ps).None? || ActiveTemplateFor(r.templateId, ts).None?)
            && (PrintProfileFor(r, user, ps).Some? && ActiveTemplateFor(r.templateId, ts).Some? &&
                ViewPath(ActiveTemplateFor(r.templateId, ts).value.name) !in views ==>
                  resp == PdfFailed(ViewMissingSuffix))
            && (resp.PdfFile? ==>
                  PrintProfileFor(r, user, ps).Some? && ActiveTemplateFor(r.templateId, ts).Some? &&
                  ViewPath(ActiveTemplateFor(r.templateId, ts).value.name) in views)
            && (resp.PdfFile? ==> resp.filename == DownloadFilename(Outbound(PrintProfileFor(r, user, ps).value)))
            && (resp.Status() == 404 || resp.Status() == 500 || resp.PdfFile?)
  {
    var resp := Print(r, user, ps, ts, views, render, production);
    var prof := PrintProfileFor(r, user, ps);
    var tpl := ActiveTemplateFor(r.templateId, ts);
    if prof.Some? && tpl.Some? && ViewPath(tpl.value.name) in views {
      var o := render(RenderJob(ViewPath(tpl.value.name), FormatProfileResponse(prof.value), ControllerOptions));
      assert resp == RenderResponse(o, DownloadFilename(Outbound(prof.value)), false, production);
    }
  }

  /** The request as the client sends it: validation runs first. */
  function HandlePrint(r: PrintRequest, user: Option<int>, ps: seq<Profile>, ts: seq<Template>,
                       views: set<string>, render: RenderJob -> RenderOutcome, production: bool)
    : (resp: Response)
    ensures PrintErrors(r, user, ps, ts) != [] ==> resp == ValidationFailed(PrintErrors(r, user, ps, ts))
    ensures PrintErrors(r, user, ps, ts) == [] ==> !r.userData.Null? && resp == Print(r, user, ps, ts, views, render, production)
    ensures resp.Status() == 422 <==> PrintErrors(r, user, ps, ts) != []
    ensures resp.Status() == 404 <==>
              PrintErrors(r, user, ps, ts) == [] &&
              (PrintProfileFor(r, user, ps).None? || ActiveTemplateFor(r.templateId, ts).None?)
  {
    var errs := PrintErrors(r, user, ps, ts);
    if errs != [] then ValidationFailed(errs)
    else Print(r, user, ps, ts, views, render, production)
  }

  /** An authenticated caller naming another user's CV is answered 422 by
      the validator, before the controller's owner-scoped lookup could
      answer 404. */
  lemma ForeignProfileIs422(r: PrintRequest, user: int, ps: seq<Profile>, ts: seq<Template>, views: set<string>,
                            render: RenderJob -> RenderOutcome, production: bool, k: nat)
    requires UniqueProfileIds(ps) && k < |ps|
    requires r.profileId.Given? && ps[k].id == Some(r.profileId.value) && ps[k].userId != Some(user)
    ensures HandlePrint(r, Some(user), ps, ts, views, render, production).Status() == 422
  {
    ForeignProfileRefused(r, user, ps, ts, k);
  }

  /** A guest may print any existing CV by id: there is no owner filter. */
  lemma GuestPrintsAnyProfile(r: PrintRequest, ps: seq<Profile>, k: nat)
    requires UniqueProfileIds(ps) && k < |ps| && !r.userData.Null?
    requires r.profileId.Given? && r.profileId.value != 0 && ps[k].id == Some(r.profileId.value)
    ensures PrintProfileFor(r, None, ps) == Some(ps[k])
  {
    FindByIdUnique(ps, r.profileId.value, k);
  }

  /** A print request whose `user_data` carries a null `jobTitle` or a null
      list is refused with 422, whichever CV and template it names. */
  lemma NullValuesRefusedOnPrint(r: PrintRequest, user: Option<int>, ps: seq<Profile>, ts: seq<Template>,
                                 views: set<string>, render: RenderJob -> RenderOutcome, production: bool, l: UserList)
    requires r.userData.Given? && (r.userData.value.jobTitle.Null? || ListIsNull(r.userData.value, l))
    ensures HandlePrint(r, user, ps, ts, views, render, production).Status() == 422
  {
    PrintNullChecks(r, user, ps, ts);
    if r.userData.value.jobTitle.Null? {
      assert JobTitleKey in PrintErrors(r, user, ps, ts);
    } else {
      assert ListKey(l) in PrintErrors(r, user, ps, ts);
    }
  }

  /** The two controller paths classify an invalid-format failure
      differently: `print` has no branch for it. */
  lemma InvalidFormatOnlyOnGuestPath(m: string, filename: string)
    ensures RenderResponse(FormatFailed(m), filename, true, false) == PdfFailed(": Invalid PDF format - " + m)
    ensures RenderResponse(FormatFailed(m), filename, false, false) == PdfFailed(": " + m)
  {
  }
}

=== FILE: error_paths.dfy ===
/** Validation error keys and the dotted paths they are reported under
    (`user_data.experiences.0.to`). */
module ErrorPaths {

  /** The three lists whose date ranges are checked, in checking order. */
  datatype Section = Educations | Experiences | Projects

  /** The six lists of `user_data`, each `sometimes|array`. */
  datatype UserList = SkillsList | EducationsList | ExperiencesList | ProjectsList | LanguagesList | InterestsList

  /** The keys a validator of the CV requests can report. */
  datatype ErrorKey =
    | NameKey
    | LanguageKey
    | SectionsOrderKey
    | TemplateIdKey
    | ProfileIdKey
    | UserDataKey
    | FirstNameKey
    | LastNameKey
    | JobTitleKey
    | ListKey(list: UserList)
    | ProficiencyKey(languageIndex: nat)
    | DateRangeKey(section: Section, index: nat)

  function SectionName(s: Section): string {
    match s
    case Educations => "educations"
    case Experiences => "experiences"
    case Projects => "projects"
  }

  function ListName(l: UserList): string {
    match l
    case SkillsList => "skills"
    case EducationsList => "educations"
    case ExperiencesList => "experiences"
    case ProjectsList => "projects"
    case LanguagesList => "languages"
    case InterestsList => "interests"
  }

  function Digit(d: nat): (c: char)
    requires d < 10
    ensures '0' <= c <= '9'
  {
    "0123456789"[d]
  }

  predicate IsDigits(s: string) {
    forall i :: 0 <= i < |s| ==> '0' <= s[i] <= '9'
  }

  /** The decimal form PHP interpolates for a list index. */
  function NatToString(n: nat): (s: string)
    ensures |s| > 0 && IsDigits(s)
    ensures |s| == 1 <==> n < 10
  {
    if n < 10 then [Digit(n)] else NatToString(n / 10) + [Digit(n % 10)]
  }

  lemma DigitInjective(a: nat, b: nat)
    requires a < 10 && b < 10 && Digit(a) == Digit(b)
    ensures a == b
  {
  }

  /** Distinct indices are printed differently. */
  lemma {:induction false} NatToStringInjective(a: nat, b: nat)
    requires NatToString(a) == NatToString(b)
    ensures a == b
  {
    var s := NatToString(a);
    if a < 10 {
      DigitInjective(a, b);
    } else {
      var k := |s| - 1;
      assert s[..k] == NatToString(a / 10) && s[k] == Digit(a % 10);
      assert s[..k] == NatToString(b / 10) && s[k] == Digit(b % 10);
      NatToStringInjective(a / 10, b / 10);
      DigitInjective(a % 10, b % 10);
    }
  }

  /** The key under which an error is reported in the 422 response. */
  function Path(k: ErrorKey): string {
    match k
    case NameKey => "name"
    case LanguageKey => "language"
    case SectionsOrderKey => "sections_order"
    case TemplateIdKey => "template_id"
    case ProfileIdKey => "profile_id"
    case UserDataKey => "user_data"
    case FirstNameKey => "user_data.firstName"
    case LastNameKey => "user_data.lastName"
    case JobTitleKey => "user_data.jobTitle"
    case ListKey(l) => "user_data." + ListName(l)
    case ProficiencyKey(i) => "user_data.languages." + NatToString(i) + ".proficiencyLevel"
    case DateRangeKey(s, i) => "user_data." + SectionName(s) + "." + NatToString(i) + ".to"
  }

  /** The middle of a date-range path: section name, dot, index. */
  function SectionIndex(s: Section, i: nat): string {
    SectionName(s) + "." + NatToString(i)
  }

  lemma {:induction false} SectionIndexInjective(s1: Section, i1: nat, s2: Section, i2: nat)
    requires SectionIndex(s1, i1) == SectionIndex(s2, i2)
    ensures s1 == s2 && i1 == i2
  {
    var a, b := SectionName(s1), SectionName(s2);
    var t := SectionIndex(s1, i1);
    // the first '.' ends the section name, and no section name holds a '.'
    assert forall j :: 0 <= j < |a| ==> a[j] != '.';
    assert forall j :: 0 <= j < |b| ==> b[j] != '.';
    assert t[|a|] == '.' && t[|b|] == '.';
    assert a == t[..|a|] == b;
    assert NatToString(i1) == t[|a| + 1..] == NatToString(i2);
    NatToStringInjective(i1, i2);
  }

  /** Two date-range errors share a path only when they are the same error:
      every offending index gets a key of its own. */
  lemma {:induction false} DateRangePathInjective(s1: Section, i1: nat, s2: Section, i2: nat)
    requires Path(DateRangeKey(s1, i1)) == Path(DateRangeKey(s2, i2))
    ensures s1 == s2 && i1 == i2
  {
    DateRangePathForm(s1, i1);
    DateRangePathForm(s2, i2);
    SectionIndexInjective(s1, i1, s2, i2);
  }

  /** Every date-range path is `user_data.` then the section name, a dot
      and the decimal index, then `.to`. */
  lemma DateRangePathForm(sec: Section, i: nat)
    ensures var p := Path(DateRangeKey(sec, i));
            && |p| == 14 + |SectionName(sec)| + |NatToString(i)|
            && p[..10] == "user_data." && p[|p| - 3..] == ".to"
            && p[10..|p| - 3] == SectionIndex(sec, i)
  {
    var p := Path(DateRangeKey(sec, i));
    var m := SectionIndex(sec, i);
    assert p == "user_data." + m + ".to";
    assert p[10..|p| - 3] == m;
  }

  /** The path in the example of a reversed experience range. */
  lemma FirstExperiencePath()
    ensures Path(DateRangeKey(Experiences, 0)) == "user_data.experiences.0.to"
  {
  }
}

=== FILE: mapper.dfy ===
/** The bidirectional mapper between the API `user_data` shape and the
    stored Profile shape (`CVDataMapper`). */
module CVDataMapper {
  import opened Wrappers
  import opened Shapes
  import opened Collections
  import Proficiency

  // ---------------------------------------------------------------------
  // Entry relations: what "the same entry, renamed" means
  // ---------------------------------------------------------------------

  /** `company` is stored as `name`; `current` as `currentlyWorkingHere`,
      both read with the `?? false` default; every other key is kept. */
  predicate ExperienceMatches(e: ApiExperience, s: StoredExperience) {
    && e.position == s.position && e.company == s.name
    && e.location == s.location && e.description == s.description
    && e.from == s.from && e.to == s.to
    && e.current.GetOr(false) == s.currentlyWorkingHere.GetOr(false)
  }

  /** `title` is stored as `name`; `current` and `technologies` have no
      stored counterpart. */
  predicate ProjectMatches(p: ApiProject, s: StoredProject) {
    && p.title == s.name && p.description == s.description
    && p.url == s.url && p.from == s.from && p.to == s.to
  }

  /** The API `name` of an interest is stored as `interest`. */
  predicate InterestMatches(i: ApiInterest, s: StoredInterest) {
    i.name == s.interest
  }

  predicate ExperiencesMatch(es: seq<ApiExperience>, ss: seq<StoredExperience>) {
    |es| == |ss| && forall i :: 0 <= i < |es| ==> ExperienceMatches(es[i], ss[i])
  }

  predicate ProjectsMatch(ps: seq<ApiProject>, ss: seq<StoredProject>) {
    |ps| == |ss| && forall i :: 0 <= i < |ps| ==> ProjectMatches(ps[i], ss[i])
  }

  predicate InterestsMatch(xs: seq<ApiInterest>, ss: seq<StoredInterest>) {
    |xs| == |ss| && forall i :: 0 <= i < |xs| ==> InterestMatches(xs[i], ss[i])
  }

  /** A stored list is truthy in PHP: not null and not `[]`. */
  predicate Filled<T>(o: Option<seq<T>>) {
    o.Some? && |o.value| > 0
  }

  // ---------------------------------------------------------------------
  // Inbound: mapUserDataToProfile
  // ---------------------------------------------------------------------

  function InboundExperience(e: ApiExperience): StoredExperience {
    StoredExperience(e.position, e.company, e.location, e.description, e.from, e.to,
                     Some(e.current.GetOr(false)))
  }

  function InboundProject(p: ApiProject): StoredProject {
    StoredProject(p.title, p.description, p.url, p.from, p.to)
  }

  function InboundLanguage(l: ApiLanguage): StoredLanguage {
    StoredLanguage(l.name, Some(Proficiency.LevelWord(l.proficiencyLevel)))
  }

  function InboundInterest(i: ApiInterest): StoredInterest {
    StoredInterest(i.name)
  }

  /** The nine personal keys, each null when missing, plus `skills` when set. */
  function InboundInfo(u: UserData): Info {
    Info(u.firstName.OrNull(), u.lastName.OrNull(), u.jobTitle.OrNull(),
         u.email.OrNull(), u.address.OrNull(), u.portfolioUrl.OrNull(),
         u.phone.OrNull(), u.summary.OrNull(), u.birthdate.OrNull(),
         u.skills.OrNull())
  }

  /** `isset($userData[$key])` decides whether a collection is mapped. */
  function MapIfSet<A, B>(f: A -> B, s: Slot<seq<A>>): Option<seq<B>> {
    if s.IsSet() then Some(ArrayMap(f, s.value)) else None
  }

  function Inbound(u: UserData): (m: MappedData)
    // `info` exists exactly when user_data has any key at all
    ensures m.info.Some? <==> !u.IsEmpty()
    ensures m.info.Some? ==>
      && m.info.value.firstName == u.firstName.OrNull()
      && m.info.value.lastName == u.lastName.OrNull()
      && m.info.value.jobTitle == u.jobTitle.OrNull()
      && m.info.value.email == u.email.OrNull()
      && m.info.value.address == u.address.OrNull()
      && m.info.value.portfolioUrl == u.portfolioUrl.OrNull()
      && m.info.value.phone == u.phone.OrNull()
      && m.info.value.summary == u.summary.OrNull()
      && m.info.value.birthdate == u.birthdate.OrNull()
    ensures m.info.Some? ==> (m.info.value.skills.Some? <==> u.skills.IsSet())
    ensures m.info.Some? && u.skills.IsSet() ==> m.info.value.skills.value == u.skills.value
    // each collection is mapped exactly when it is set, even when it is `[]`
    ensures m.educations.Some? <==> u.educations.IsSet()
    ensures m.experiences.Some? <==> u.experiences.IsSet()
    ensures m.projects.Some? <==> u.projects.IsSet()
    ensures m.languages.Some? <==> u.languages.IsSet()
    ensures m.interests.Some? <==> u.interests.IsSet()
    ensures m.educations.Some? ==> m.educations.value == u.educations.value
    ensures m.experiences.Some? ==>
      && ExperiencesMatch(u.experiences.value, m.experiences.value)
      && forall i :: 0 <= i < |m.experiences.value| ==> m.experiences.value[i].currentlyWorkingHere.Some?
    ensures m.projects.Some? ==> ProjectsMatch(u.projects.value, m.projects.value)
    ensures m.languages.Some? ==>
      && |m.languages.value| == |u.languages.value|
      && forall i :: 0 <= i < |m.languages.value| ==>
           && m.languages.value[i].language == u.languages.value[i].name
           && m.languages.value[i].level == Some(Proficiency.LevelWord(u.languages.value[i].proficiencyLevel))
    ensures m.interests.Some? ==> InterestsMatch(u.interests.value, m.interests.value)
  {
    MappedData(
      if u.IsEmpty() then None else Some(InboundInfo(u)),
      if u.educations.IsSet() then Some(u.educations.value) else None,
      MapIfSet(InboundExperience, u.experiences),
      MapIfSet(InboundProject, u.projects),
      MapIfSet(InboundLanguage, u.languages),
      MapIfSet(InboundInterest, u.interests))
  }

  // ---------------------------------------------------------------------
  // Outbound: mapProfileToUserData
  // ---------------------------------------------------------------------

  function OutboundExperience(s: StoredExperience): ApiExperience {
    ApiExperience(s.position, s.name, s.location, s.description, s.from, s.to,
                  Some(s.currentlyWorkingHere.GetOr(false)))
  }

  function OutboundProject(s: StoredProject): ApiProject {
    ApiProject(s.name, s.description, None, s.url, s.from, s.to, None)
  }

  function OutboundLanguage(s: StoredLanguage): ApiLanguage {
    ApiLanguage(s.language, Some(Proficiency.LevelNumber(s.level)))
  }

  function OutboundInterest(s: StoredInterest): ApiInterest {
    ApiInterest(s.interest)
  }

  /** `if ($profile->$column)`: an empty or null stored list sets no key. */
  function MapIfFilled<A, B>(f: A -> B, o: Option<seq<A>>): (r: Slot<seq<B>>)
    ensures r.Given? <==> Filled(o)
    ensures !r.Null?
    ensures r.Given? ==> |r.value| == |o.value| && forall i :: 0 <= i < |r.value| ==> r.value[i] == f(o.value[i])
  {
    if Filled(o) then Given(ArrayMap(f, o.value)) else Absent
  }

  function OutboundExperiences(o: Option<seq<StoredExperience>>): (s: Slot<seq<ApiExperience>>)
    ensures s.Given? <==> Filled(o)
    ensures !s.Null?
    ensures s.Given? ==>
      && ExperiencesMatch(s.value, o.value)
      && forall i :: 0 <= i < |s.value| ==> s.value[i].current.Some?
  {
    MapIfFilled(OutboundExperience, o)
  }

  function OutboundProjects(o: Option<seq<StoredProject>>): (s: Slot<seq<ApiProject>>)
    ensures s.Given? <==> Filled(o)
    ensures !s.Null?
    ensures s.Given? ==>
      && ProjectsMatch(s.value, o.value)
      && forall i :: 0 <= i < |s.value| ==> s.value[i].current.None? && s.value[i].technologies.None?
  {
    MapIfFilled(OutboundProject, o)
  }

  function OutboundLanguages(o: Option<seq<StoredLanguage>>): (s: Slot<seq<ApiLanguage>>)
    ensures s.Given? <==> Filled(o)
    ensures !s.Null?
    ensures s.Given? ==>
      && |s.value| == |o.value|
      && forall i :: 0 <= i < |s.value| ==>
           && s.value[i].name == o.value[i].language
           && s.value[i].proficiencyLevel == Some(Proficiency.LevelNumber(o.value[i].level))
  {
    MapIfFilled(OutboundLanguage, o)
  }

  function OutboundInterests(o: Option<seq<StoredInterest>>): (s: Slot<seq<ApiInterest>>)
    ensures s.Given? <==> Filled(o)
    ensures !s.Null?
    ensures s.Given? ==> InterestsMatch(s.value, o.value)
  {
    MapIfFilled(OutboundInterest, o)
  }

  function Outbound(p: Profile): (u: UserData)
    // personal keys: all nine written (possibly null) when info is truthy, none otherwise
    ensures p.info.None? ==> u.NoPersonalKeys() && u.skills.Absent?
    ensures p.info.Some? ==> u.AllPersonalKeys()
    ensures p.info.Some? ==>
      && u.firstName.OrNull() == p.info.value.firstName
      && u.lastName.OrNull() == p.info.value.lastName
      && u.jobTitle.OrNull() == p.info.value.jobTitle
      && u.email.OrNull() == p.info.value.email
      && u.address.OrNull() == p.info.value.address
      && u.portfolioUrl.OrNull() == p.info.value.portfolioUrl
      && u.phone.OrNull() == p.info.value.phone
      && u.summary.OrNull() == p.info.value.summary
      && u.birthdate.OrNull() == p.info.value.birthdate
    ensures p.info.Some? ==> u.skills.OrNull() == p.info.value.skills && !u.skills.Null?
    // a collection key is written exactly when the stored list is non-empty
    ensures u.educations.Given? <==> Filled(p.educations)
    ensures u.experiences.Given? <==> Filled(p.experiences)
    ensures u.projects.Given? <==> Filled(p.projects)
    ensures u.languages.Given? <==> Filled(p.languages)
    ensures u.interests.Given? <==> Filled(p.interests)
    ensures !u.educations.Null? && !u.experiences.Null? && !u.projects.Null?
    ensures !u.languages.Null? && !u.interests.Null?
    ensures u.educations.Given? ==> u.educations.value == p.educations.value
    ensures u.experiences.Given? ==>
      && ExperiencesMatch(u.experiences.value, p.experiences.value)
      && forall i :: 0 <= i < |u.experiences.value| ==> u.experiences.value[i].current.Some?
    ensures u.projects.Given? ==>
      && ProjectsMatch(u.projects.value, p.projects.value)
      && forall i :: 0 <= i < |u.projects.value| ==>
           u.projects.value[i].current.None? && u.projects.value[i].technologies.None?
    ensures u.languages.Given? ==>
      && |u.languages.value| == |p.languages.value|
      && forall i :: 0 <= i < |u.languages.value| ==>
           && u.languages.value[i].name == p.languages.value[i].language
           && u.languages.value[i].proficiencyLevel == Some(Proficiency.LevelNumber(p.languages.value[i].level))
    ensures u.interests.Given? ==> InterestsMatch(u.interests.value, p.interests.value)
  {
    var info := p.info;
    UserData(
      if info.Some? then Assigned(info.value.firstName) else Absent,
      if info.Some? then Assigned(info.value.lastName) else Absent,
      if info.Some? then Assigned(info.value.jobTitle) else Absent,
      if info.Some? then Assigned(info.value.email) else Absent,
      if info.Some? then Assigned(info.value.address) else Absent,
      if info.Some? then Assigned(info.value.portfolioUrl) else Absent,
      if info.Some? then Assigned(info.value.phone) else Absent,
      if info.Some? then Assigned(info.value.summary) else Absent,
      if info.Some? then Assigned(info.value.birthdate) else Absent,
      if info.Some? && info.value.skills.Some? then Given(info.value.skills.value) else Absent,
      if Filled(p.educations) then Given(p.educations.value) else Absent,
      OutboundExperiences(p.experiences),
      OutboundProjects(p.projects),
      OutboundLanguages(p.languages),
      OutboundInterests(p.interests))
  }

  // ---------------------------------------------------------------------
  // formatProfileResponse
  // ---------------------------------------------------------------------

  function FormatProfileResponse(p: Profile): (r: ProfileResponse)
    ensures r.userData == Outbound(p)
    ensures r.id == p.id && r.userId == p.userId && r.name == p.name
    ensures r.language == p.language && r.sectionsOrder == p.sectionsOrder
  {
    ProfileResponse(p.id, p.userId, p.name, p.language, p.sectionsOrder, Outbound(p))
  }
}

=== FILE: mapper_roundtrip.dfy ===
/** How the inbound and outbound mappers undo each other, and where they do not. */
module MapperRoundTrip {
  import opened Wrappers
  import opened Shapes
  import opened Collections
  import opened CVDataMapper
  import Proficiency

  /** A list key as the outbound mapper writes it: missing, or a non-empty list. */
  predicate ListKey<T>(s: Slot<seq<T>>) {
    s.Absent? || (s.Given? && |s.value| > 0)
  }

  /** The `user_data` arrays the outbound mapper can produce. */
  predicate IsResponseShape(u: UserData) {
    && ((u.NoPersonalKeys() && u.skills.Absent?) || (u.AllPersonalKeys() && !u.skills.Null?))
    && ListKey(u.educations) && ListKey(u.experiences) && ListKey(u.projects)
    && ListKey(u.languages) && ListKey(u.interests)
    && (u.experiences.Given? ==>
          forall i :: 0 <= i < |u.experiences.value| ==> u.experiences.value[i].current.Some?)
    && (u.projects.Given? ==>
          forall i :: 0 <= i < |u.projects.value| ==>
            u.projects.value[i].current.None? && u.projects.value[i].technologies.None?)
    && (u.languages.Given? ==>
          forall i :: 0 <= i < |u.languages.value| ==>
            var n := u.languages.value[i].proficiencyLevel; n.Some? && 1 <= n.value <= 5)
  }

  /** The stored Profiles the inbound mapper can produce from a `user_data`
      that names a person: `info` present, lists null or non-empty, every
      experience with its flag, every level one of the five words. */
  predicate IsStorageShape(p: Profile) {
    && p.info.Some?
    && (p.educations.None? || Filled(p.educations))
    && (p.experiences.None? || Filled(p.experiences))
    && (p.projects.None? || Filled(p.projects))
    && (p.languages.None? || Filled(p.languages))
    && (p.interests.None? || Filled(p.interests))
    && (p.experiences.Some? ==>
          forall i :: 0 <= i < |p.experiences.value| ==>
            p.experiences.value[i].currentlyWorkingHere.Some?)
    && (p.languages.Some? ==>
          forall i :: 0 <= i < |p.languages.value| ==>
            var w := p.languages.value[i].level; w.Some? && w.value in Proficiency.LevelWords)
  }

  /** Every outbound result has the response shape. */
  lemma OutboundHasResponseShape(p: Profile)
    ensures IsResponseShape(Outbound(p))
  {
  }

  /** A slot the array holds survives being read with `?? null` and written back. */
  lemma AssignedOrNull<T>(s: Slot<T>)
    requires s.Present()
    ensures Assigned(s.OrNull()) == s
  {
  }

  /** API to storage to API: a response-shaped `user_data` that carries the
      personal keys comes back unchanged, whatever the row's other columns. */
  lemma {:induction false} ApiRoundTrip(u: UserData, id: Option<int>, userId: Option<int>,
                                         name: Option<string>, language: Option<string>,
                                         sectionsOrder: Option<seq<string>>)
    requires IsResponseShape(u) && u.AllPersonalKeys()
    ensures Outbound(NewProfile(id, userId, name, language, sectionsOrder, Inbound(u))) == u
  {
    var m := Inbound(u);
    var p := NewProfile(id, userId, name, language, sectionsOrder, m);
    var r := Outbound(p);
    assert !u.IsEmpty();
    AssignedOrNull(u.firstName);
    AssignedOrNull(u.lastName);
    AssignedOrNull(u.jobTitle);
    AssignedOrNull(u.email);
    AssignedOrNull(u.address);
    AssignedOrNull(u.portfolioUrl);
    AssignedOrNull(u.phone);
    AssignedOrNull(u.summary);
    AssignedOrNull(u.birthdate);
    if u.experiences.Given? {
      ArrayMapInverse(InboundExperience, OutboundExperience, u.experiences.value);
    }
    if u.projects.Given? {
      ArrayMapInverse(InboundProject, OutboundProject, u.projects.value);
    }
    if u.languages.Given? {
      var ls := u.languages.value;
      forall i | 0 <= i < |ls|
        ensures OutboundLanguage(InboundLanguage(ls[i])) == ls[i]
      {
        Proficiency.NumberRoundTrip(ls[i].proficiencyLevel.value);
      }
      ArrayMapInverse(InboundLanguage, OutboundLanguage, ls);
    }
    if u.interests.Given? {
      ArrayMapInverse(InboundInterest, OutboundInterest, u.interests.value);
    }
    assert r.experiences == u.experiences;
    assert r.languages == u.languages;
  }

  /** A non-empty `user_data` with no personal key does not come back as it
      went in: the inbound mapper creates an `info` of nulls, and the
      outbound mapper then writes all nine personal keys as null. */
  lemma NullInfoInvented(u: UserData, id: Option<int>, userId: Option<int>,
                         name: Option<string>, language: Option<string>,
                         sectionsOrder: Option<seq<string>>)
    requires !u.IsEmpty() && u.NoPersonalKeys()
    ensures Inbound(u).info == Some(Info(None, None, None, None, None, None, None, None, None, u.skills.OrNull()))
    ensures var r := Outbound(NewProfile(id, userId, name, language, sectionsOrder, Inbound(u)));
            r.AllPersonalKeys() && r.firstName == Null && r.lastName == Null && r != u
  {
  }

  /** Storage to API to storage: a storage-shaped Profile's columns are
      reproduced exactly by mapping them out and back in. */
  lemma {:induction false} StorageRoundTrip(p: Profile)
    requires IsStorageShape(p)
    ensures Inbound(Outbound(p)) == Columns(p)
  {
    var u := Outbound(p);
    var m := Inbound(u);
    assert !u.IsEmpty();
    assert m.info == p.info;
    if p.experiences.Some? {
      ArrayMapInverse(OutboundExperience, InboundExperience, p.experiences.value);
    }
    if p.projects.Some? {
      ArrayMapInverse(OutboundProject, InboundProject, p.projects.value);
    }
    if p.languages.Some? {
      var ls := p.languages.value;
      forall i | 0 <= i < |ls|
        ensures InboundLanguage(OutboundLanguage(ls[i])) == ls[i]
      {
        Proficiency.WordRoundTrip(ls[i].level.value);
      }
      ArrayMapInverse(OutboundLanguage, InboundLanguage, ls);
    }
    if p.interests.Some? {
      ArrayMapInverse(OutboundInterest, InboundInterest, p.interests.value);
    }
  }

  /** A list sent as `[]` is stored as `[]`, but reading the row back writes
      no key for it: PHP treats an empty array as false. */
  lemma EmptyListNotEchoed(u: UserData, id: Option<int>, userId: Option<int>,
                           name: Option<string>, language: Option<string>,
                           sectionsOrder: Option<seq<string>>)
    ensures var m := Inbound(u);
            var r := Outbound(NewProfile(id, userId, name, language, sectionsOrder, m));
            && (u.educations == Given([]) ==> m.educations == Some([]) && r.educations.Absent?)
            && (u.experiences == Given([]) ==> m.experiences == Some([]) && r.experiences.Absent?)
            && (u.projects == Given([]) ==> m.projects == Some([]) && r.projects.Absent?)
            && (u.languages == Given([]) ==> m.languages == Some([]) && r.languages.Absent?)
            && (u.interests == Given([]) ==> m.interests == Some([]) && r.interests.Absent?)
  {
  }

  /** One experience: `company` and the truth value of `current` survive the
      round trip; a missing `current` comes back as an explicit false. */
  lemma ExperienceRoundTrip(e: ApiExperience)
    ensures OutboundExperience(InboundExperience(e)) == e.(current := Some(e.current.GetOr(false)))
    ensures e.current.Some? ==> OutboundExperience(InboundExperience(e)) == e
  {
  }

  /** One project: `title` and the other stored keys survive; `current` and
      `technologies` are dropped. */
  lemma ProjectRoundTrip(p: ApiProject)
    ensures OutboundProject(InboundProject(p)) == p.(current := None, technologies := None)
  {
  }

  /** One language: a level in 1..5 survives; any other level comes back as 1. */
  lemma LanguageRoundTrip(l: ApiLanguage)
    ensures var n := l.proficiencyLevel;
            n.Some? && 1 <= n.value <= 5 ==> OutboundLanguage(InboundLanguage(l)) == l
    ensures var n := l.proficiencyLevel;
            !(n.Some? && 1 <= n.value <= 5) ==>
              OutboundLanguage(InboundLanguage(l)) == l.(proficiencyLevel := Some(1)) &&
              OutboundLanguage(InboundLanguage(l)) != l
  {
    if l.proficiencyLevel.Some? && 1 <= l.proficiencyLevel.value <= 5 {
      Proficiency.NumberRoundTrip(l.proficiencyLevel.value);
    }
  }
}

=== FILE: pdf_service.dfy ===
/** `CVPDFService`: from a Profile and a Template to a PDF download or a
    stored file. The renderer (Chromium driven through the PDF library) is
    a function parameter; the set of registered views is a parameter too. */
module CVPDFService {
  import opened Wrappers
  import opened Shapes
  import opened CVDataMapper
  import opened ProfileModel

  // ---------------------------------------------------------------------
  // View slug and path
  // ---------------------------------------------------------------------

  predicate IsUpper(c: char) {
    'A' <= c <= 'Z'
  }

  /** `strtolower` on one character: ASCII letters only, as PHP 8.2 and later. */
  function LowerAscii(c: char): (d: char)
    ensures IsUpper(c) ==> d as int == c as int + 32
    ensures !IsUpper(c) ==> d == c
    ensures !IsUpper(d)
  {
    if IsUpper(c) then (c as int + 32) as char else c
  }

  /** One character of `strtolower(str_replace(' ', '-', $name))`. */
  function SlugChar(c: char): char {
    if c == ' ' then '-' else LowerAscii(c)
  }

  /** The view name derived from a template name. */
  function ViewSlug(name: string): (s: string)
    ensures |s| == |name|
    ensures forall i :: 0 <= i < |s| ==> s[i] != ' ' && !IsUpper(s[i])
    ensures forall i :: 0 <= i < |s| && name[i] == ' ' ==> s[i] == '-'
    ensures forall i :: 0 <= i < |s| && IsUpper(name[i]) ==> s[i] as int == name[i] as int + 32
    ensures forall i :: 0 <= i < |s| && name[i] != ' ' && !IsUpper(name[i]) ==> s[i] == name[i]
  {
    seq(|name|, i requires 0 <= i < |name| => SlugChar(name[i]))
  }

  /** A slug is its own slug: applying the conversion twice changes nothing. */
  lemma SlugIdempotent(name: string)
    ensures ViewSlug(ViewSlug(name)) == ViewSlug(name)
  {
    var s := ViewSlug(name);
    var t := ViewSlug(s);
    assert |t| == |s|;
    forall i | 0 <= i < |s|
      ensures t[i] == s[i]
    {
    }
  }

  /** The slug of a template name that already is a slug is that name. */
  lemma SlugOfSlug(name: string)
    requires forall i :: 0 <= i < |name| ==> name[i] != ' ' && !IsUpper(name[i])
    ensures ViewSlug(name) == name
  {
    var s := ViewSlug(name);
    assert |s| == |name| && forall i :: 0 <= i < |s| ==> s[i] == name[i];
  }

  /** The seeded name `Modern Professional` selects `modern-professional`. */
  lemma ModernProfessionalSlug()
    ensures ViewSlug("Modern Professional") == "modern-professional"
  {
    var s := ViewSlug("Modern Professional");
    forall i | 0 <= i < |s|
      ensures s[i] == "modern-professional"[i]
    {
    }
  }

  const ViewPrefix: string := "templates.cv."

  /** `"templates.cv.{$viewName}"` */
  function ViewPath(templateName: string): (p: string)
    ensures |p| == |ViewPrefix| + |templateName|
    ensures p[..|ViewPrefix|] == ViewPrefix && p[|ViewPrefix|..] == ViewSlug(templateName)
  {
    ViewPrefix + ViewSlug(templateName)
  }

  // ---------------------------------------------------------------------
  // Download filename
  // ---------------------------------------------------------------------

  /** `($cv['user_data']['firstName'] ?? 'CV') . '_' . ($cv['user_data']['lastName'] ?? 'Resume') . '.pdf'` */
  function DownloadFilename(u: UserData): (f: string)
    ensures var first := u.firstName.OrElse("CV");
            |f| == |first| + |u.lastName.OrElse("Resume")| + 5 &&
            f[..|first|] == first && f[|first|] == '_' &&
            f[|first| + 1..|f| - 4] == u.lastName.OrElse("Resume") &&
            f[|f| - 4..] == ".pdf"
  {
    u.firstName.OrElse("CV") + "_" + u.lastName.OrElse("Resume") + ".pdf"
  }

  /** A Profile without personal info downloads as `CV_Resume.pdf`; one
      with both names downloads under them. */
  lemma FilenameOfProfile(p: Profile)
    ensures p.info.None? ==> DownloadFilename(Outbound(p)) == "CV_Resume.pdf"
    ensures p.info.Some? ==>
              DownloadFilename(Outbound(p)) ==
                p.info.value.firstName.GetOr("CV") + "_" + p.info.value.lastName.GetOr("Resume") + ".pdf"
  {
    var u := Outbound(p);
    if p.info.Some? {
      assert u.firstName.OrElse("CV") == p.info.value.firstName.GetOr("CV");
      assert u.lastName.OrElse("Resume") == p.info.value.lastName.GetOr("Resume");
    }
  }

  // ---------------------------------------------------------------------
  // Rendering
  // ---------------------------------------------------------------------

  /** What the PDF builder is given besides the view and its data. */
  datatype PdfOptions = PdfOptions(format: string, margins: seq<int>, browserArgs: seq<string>)

  /** The service's options; `--no-sandbox` comes from the library's configuration. */
  const ServiceOptions: PdfOptions :=
    PdfOptions("a4", [10, 10, 10, 10],
               ["--disable-dev-shm-usage", "--disable-gpu", "--disable-setuid-sandbox",
                "--disable-software-rasterizer"])

  /** One call of the external renderer: a view, its `cv` data, the options. */
  datatype RenderJob = RenderJob(viewPath: string, cv: ProfileResponse, options: PdfOptions)

  /** What the renderer returns: the PDF bytes, or one of the exception
      kinds the callers tell apart. */
  datatype RenderOutcome =
    | Rendered(pdf: seq<bv8>)
    | ViewFailed(message: string)       // Illuminate\View\ViewException
    | FormatFailed(message: string)     // Spatie\Pdf\Exceptions\InvalidFormat
    | ProcessFailed(message: string)    // Symfony ProcessFailedException
    | OtherFailure(message: string)     // any other \Exception

  /** The two results of `generatePdf`: a download response, or the public
      file the PDF was saved to (its URL is the public disk's URL of that path). */
  datatype PdfOutput =
    | Download(pdf: seq<bv8>, filename: string)
    | Stored(relativePath: string, pdf: seq<bv8>)

  /** What `generatePdf` throws: a new RuntimeException, or the renderer's
      own exception passed on unchanged. */
  datatype ServiceError = Runtime(message: string) | Rethrown(failure: RenderOutcome)

  const ViewMissingText: string := "Template view not found. Please check server configuration."
  const ProcessFailedText: string :=
    "PDF generation process failed. " + "Please ensure Chrome/Chromium and Node.js are installed on the server."

  /** The `catch` chain of `generatePdf`. */
  function ClassifyFailure(o: RenderOutcome): (e: ServiceError)
    requires !o.Rendered?
    ensures o.ViewFailed? ==> e == Runtime("View error - " + o.message)
    ensures o.FormatFailed? ==> e == Runtime("Invalid PDF format - " + o.message)
    ensures o.ProcessFailed? ==> e == Runtime(ProcessFailedText)
    ensures o.OtherFailure? ==> e == Rethrown(o)
  {
    match o
    case ViewFailed(m) => Runtime("View error - " + m)
    case FormatFailed(m) => Runtime("Invalid PDF format - " + m)
    case ProcessFailed(_) => Runtime(ProcessFailedText)
    case OtherFailure(_) => Rethrown(o)
  }

  lemma PrefixedEqual(p: string, a: string, b: string)
    requires p + a == p + b
    ensures a == b
  {
    assert a == (p + a)[|p|..];
  }

  /** The first character of each RuntimeException message. */
  lemma LeadingChar(o: RenderOutcome)
    requires !o.Rendered?
    ensures o.ViewFailed? ==> ClassifyFailure(o).message[0] == 'V'
    ensures o.FormatFailed? ==> ClassifyFailure(o).message[0] == 'I'
    ensures o.ProcessFailed? ==> ClassifyFailure(o).message[0] == 'P'
  {
    match o
    case ViewFailed(m) =>
      assert ("View error - " + m)[0] == "View error - "[0];
    case FormatFailed(m) =>
      assert ("Invalid PDF format - " + m)[0] == "Invalid PDF format - "[0];
    case ProcessFailed(_) =>
    case OtherFailure(_) =>
  }

  /** The error tells the failure kind apart, and keeps the renderer's
      message for every kind except a process failure. */
  lemma {:induction false} ClassificationRecoversKind(o1: RenderOutcome, o2: RenderOutcome)
    requires !o1.Rendered? && !o2.Rendered? && ClassifyFailure(o1) == ClassifyFailure(o2)
    ensures o1.ViewFailed? == o2.ViewFailed? && o1.FormatFailed? == o2.FormatFailed?
    ensures o1.ProcessFailed? == o2.ProcessFailed? && o1.OtherFailure? == o2.OtherFailure?
    ensures !o1.ProcessFailed? ==> o1 == o2
  {
    LeadingChar(o1);
    LeadingChar(o2);
    match o1
    case ViewFailed(m1) =>
      PrefixedEqual("View error - ", m1, o2.message);
    case FormatFailed(m1) =>
      PrefixedEqual("Invalid PDF format - ", m1, o2.message);
    case ProcessFailed(_) =>
    case OtherFailure(_) =>
  }

  /** The render job of the service for a Profile and a view. */
  function ServiceJob(p: Profile, viewPath: string): RenderJob {
    RenderJob(viewPath, FormatProfileResponse(p), ServiceOptions)
  }

  /** `generatePdf($profile, $template, $returnUrl)`. `views` are the
      registered view names, `render` the external renderer, `uniqueId`
      what `uniqid()` returns after the `cv_` prefix. */
  function GeneratePdf(p: Profile, t: Template, returnUrl: bool, views: set<string>,
                       render: RenderJob -> RenderOutcome, uniqueId: string)
    : (r: Result<PdfOutput, ServiceError>)
    ensures ViewPath(t.name) !in views ==> r == Err(Runtime(ViewMissingText))
    ensures ViewPath(t.name) in views ==>
              var o := render(ServiceJob(p, ViewPath(t.name)));
              && (o.Rendered? <==> r.Ok?)
              && (r.Ok? ==> r.value.pdf == o.pdf)
              && (r.Err? ==> r.error == ClassifyFailure(o))
    ensures r.Ok? ==> (r.value.Download? <==> !returnUrl)
    ensures r.Ok? && !returnUrl ==> r.value.filename == DownloadFilename(Outbound(p))
    ensures r.Ok? && returnUrl ==> r.value.relativePath == "cvs/cv_" + uniqueId + ".pdf"
  {
    var viewPath := ViewPath(t.name);
    if viewPath !in views then Err(Runtime(ViewMissingText))
    else
      var cv := FormatProfileResponse(p);
      match render(ServiceJob(p, viewPath))
      case Rendered(pdf) =>
        if !returnUrl then Ok(Download(pdf, DownloadFilename(cv.userData)))
        else Ok(Stored("cvs/" + "cv_" + uniqueId + ".pdf", pdf))
      case o => Err(ClassifyFailure(o))
  }

  /** A missing view fails before the Profile is read or the renderer is
      called: neither influences the result. */
  lemma MissingViewFailsFirst(p1: Profile, p2: Profile, t: Template, returnUrl: bool, views: set<string>,
                              render1: RenderJob -> RenderOutcome, render2: RenderJob -> RenderOutcome,
                              id1: string, id2: string)
    requires ViewPath(t.name) !in views
    ensures GeneratePdf(p1, t, returnUrl, views, render1, id1) == GeneratePdf(p2, t, returnUrl, views, render2, id2)
  {
  }

  /** The stored file lies under `cvs/`, is named `cv_…`, and ends in `.pdf`. */
  lemma StoredPathShape(p: Profile, t: Template, views: set<string>,
                        render: RenderJob -> RenderOutcome, uniqueId: string)
    requires GeneratePdf(p, t, true, views, render, uniqueId).Ok?
    ensures var path := GeneratePdf(p, t, true, views, render, uniqueId).value.relativePath;
            |path| >= 11 && path[..7] == "cvs/cv_" && path[|path| - 4..] == ".pdf"
  {
  }

  // ---------------------------------------------------------------------
  // createTemporaryProfile
  // ---------------------------------------------------------------------

  /** An unsaved Profile built from `user_data`; name and language default
      to `CV` and `en`. */
  function CreateTemporaryProfile(u: UserData, userId: Option<int> := None,
                                  name: Option<string> := Some("CV"),
                                  language: Option<string> := Some("en"),
                                  sectionsOrder: Option<seq<string>> := None): (p: Profile)
    ensures p.id.None?
    ensures p.userId == userId && p.name == name && p.language == language
    ensures p.sectionsOrder == sectionsOrder
    ensures Columns(p) == Inbound(u)
  {
    NewProfile(None, userId, name, language, sectionsOrder, Inbound(u))
  }

  /** With only `user_data` given, the temporary Profile is a guest CV
      named `CV` in English, holding the data the mapper produced. */
  lemma TemporaryProfileDefaults(u: UserData)
    ensures var p := CreateTemporaryProfile(u);
            p.name == Some("CV") && p.language == Some("en") && p.userId.None? &&
            p.sectionsOrder.None? && p.info.Some? == !u.IsEmpty()
  {
  }

  /** The attribute array `createTemporaryProfile` passes to `new Profile`. */
  function TemporaryAttributes(u: UserData, userId: Option<int>, name: Option<string>,
                               language: Option<string>, sectionsOrder: Option<seq<string>>): ProfilePatch
  {
    var m := Inbound(u);
    ProfilePatch(Assigned(userId), Assigned(name), Assigned(language), Assigned(sectionsOrder),
                 Assigned(m.info), Assigned(m.interests), Assigned(m.languages),
                 Assigned(m.experiences), Assigned(m.projects), Assigned(m.educations))
  }

  /** `createTemporaryProfile` as the code is written: `new Profile([...])`
      mass-assigns, so the name, language and order it is given are lost. */
  function CreateTemporaryProfileAsWritten(u: UserData, userId: Option<int> := None,
                                           name: Option<string> := Some("CV"),
                                           language: Option<string> := Some("en"),
                                           sectionsOrder: Option<seq<string>> := None): (p: Profile)
    ensures p.id.None? && p.userId == userId
    ensures p.name.None? && p.language.None? && p.sectionsOrder.None?
    ensures Columns(p) == Inbound(u)
  {
    NewModel(TemporaryAttributes(u, userId, name, language, sectionsOrder))
  }

  /** The intended temporary Profile is the attribute array assigned key by
      key; the written one differs from it exactly in the three keys
      `$fillable` leaves out. */
  lemma TemporaryProfileIsAssignment(u: UserData, userId: Option<int>, name: Option<string>,
                                     language: Option<string>, sectionsOrder: Option<seq<string>>)
    ensures CreateTemporaryProfile(u, userId, name, language, sectionsOrder) ==
              Assign(BlankProfile, TemporaryAttributes(u, userId, name, language, sectionsOrder))
    ensures CreateTemporaryProfileAsWritten(u, userId, name, language, sectionsOrder) ==
              CreateTemporaryProfile(u, userId, name, language, sectionsOrder)
                .(name := None, language := None, sectionsOrder := None)
  {
  }

  /** The `dir` of the CV views' `<html>` element: right to left only for
      Arabic, a null language counting as `en`. */
  function PageDirection(cv: ProfileResponse): (d: string)
    ensures d == "rtl" <==> cv.language == Some("ar")
    ensures d == "rtl" || d == "ltr"
  {
    if cv.language.GetOr("en") == "ar" then "rtl" else "ltr"
  }

  /** An Arabic temporary CV: the written code renders it left to right,
      the intended one right to left. */
  lemma TemporaryProfileLosesLanguage(u: UserData, userId: Option<int>, name: Option<string>,
                                      sectionsOrder: Option<seq<string>>)
    ensures PageDirection(FormatProfileResponse(
              CreateTemporaryProfileAsWritten(u, userId, name, Some("ar"), sectionsOrder))) == "ltr"
    ensures PageDirection(FormatProfileResponse(
              CreateTemporaryProfile(u, userId, name, Some("ar"), sectionsOrder))) == "rtl"
  {
  }
}

=== FILE: preview.dfy ===
/** The HTML preview of a stored CV (`ProfilePreviewController::preview`):
    which template renders it, and in which order the request can fail. */
module ProfilePreview {
  import opened Wrappers
  import opened Shapes
  import opened Collections
  import opened CVDataMapper
  import opened CVRepository
  import opened CVPDFService

  /** The view returned to the browser, or an `abort` with its status and text. */
  datatype PreviewResult =
    | Page(viewPath: string, cv: ProfileResponse)
    | Abort(status: int, message: string)

  predicate DefaultAndActive(t: Template) {
    t.isDefault && t.isActive
  }

  predicate Active(t: Template) {
    t.isActive
  }

  /** PHP's `$a ?? $b`. */
  function Coalesce<T>(a: Option<T>, b: Option<T>): (r: Option<T>)
    ensures a.Some? ==> r == a
    ensures a.None? ==> r == b
  {
    if a.Some? then a else b
  }

  /** The template the preview renders. A truthy id names it, and only an
      active template of that id will do; without one, the first active
      default template, else the first active template. */
  function SelectTemplate(ts: seq<Template>, templateId: Option<int>): (r: Result<Template, string>)
    ensures r.Ok? ==> r.value in ts && r.value.isActive
    ensures TruthyId(templateId) ==> (r.Ok? <==> FindActiveTemplate(ts, templateId.value).Some?)
    ensures TruthyId(templateId) && r.Ok? ==> r.value.id == templateId.value
    ensures TruthyId(templateId) && r.Err? ==> r.error == "Template not found or inactive"
    ensures !TruthyId(templateId) && (exists i :: 0 <= i < |ts| && DefaultAndActive(ts[i])) ==>
              r.Ok? && r.value.isDefault &&
              exists i :: 0 <= i < |ts| && ts[i] == r.value && forall j :: 0 <= j < i ==> !DefaultAndActive(ts[j])
    ensures !TruthyId(templateId) && (forall i :: 0 <= i < |ts| ==> !DefaultAndActive(ts[i])) ==>
              (r.Ok? <==> exists i :: 0 <= i < |ts| && Active(ts[i]))
    ensures !TruthyId(templateId) && (forall i :: 0 <= i < |ts| ==> !DefaultAndActive(ts[i])) && r.Ok? ==>
              exists i :: 0 <= i < |ts| && ts[i] == r.value && forall j :: 0 <= j < i ==> !Active(ts[j])
    ensures !TruthyId(templateId) && r.Err? ==> r.error == "No template available"
  {
    if TruthyId(templateId) then
      match FindActiveTemplate(ts, templateId.value)
      case Some(t) => Ok(t)
      case None => Err("Template not found or inactive")
    else
      match First(ts, DefaultAndActive)
      case Some(t) => Ok(t)
      case None =>
        match First(ts, Active)
        case Some(t) => Ok(t)
        case None => Err("No template available")
  }

  /** `preview($request, $id)`. `queryTemplateId` is the `template_id` query
      parameter (an empty or `0` value as 0); `profileTemplateId` is the
      row's `template_id` attribute. */
  function Preview(ps: seq<Profile>, id: int, queryTemplateId: Option<int>, profileTemplateId: Option<int>,
                   ts: seq<Template>, views: set<string>)
    : (r: PreviewResult)
    ensures FindById(ps, id).None? ==> r == Abort(404, "Profile not found")
    ensures r.Page? ==> FindById(ps, id).Some? && r.viewPath in views &&
                        r.cv == FormatProfileResponse(FindById(ps, id).value)
    ensures FindById(ps, id).Some? ==>
              var sel := SelectTemplate(ts, Coalesce(queryTemplateId, profileTemplateId));
              && (sel.Err? ==> r == Abort(404, sel.error))
              && (sel.Ok? && ViewPath(sel.value.name) !in views ==>
                    r == Abort(404, "Template view '" + ViewPath(sel.value.name) + "' not found"))
              && (sel.Ok? && ViewPath(sel.value.name) in views ==> r.Page? && r.viewPath == ViewPath(sel.value.name))
    ensures r.Abort? ==> r.status == 404
  {
    match FindById(ps, id)
    case None => Abort(404, "Profile not found")
    case Some(profile) =>
      match SelectTemplate(ts, Coalesce(queryTemplateId, profileTemplateId))
      case Err(message) => Abort(404, message)
      case Ok(t) =>
        var viewPath := ViewPath(t.name);
        if viewPath !in views then Abort(404, "Template view '" + viewPath + "' not found")
        else Page(viewPath, FormatProfileResponse(profile))
  }

  /** A missing profile is reported before any template is looked at:
      neither the templates nor the views change the answer. */
  lemma MissingProfileFirst(ps: seq<Profile>, id: int, q1: Option<int>, q2: Option<int>,
                            p1: Option<int>, p2: Option<int>, ts1: seq<Template>, ts2: seq<Template>,
                            v1: set<string>, v2: set<string>)
    requires FindById(ps, id).None?
    ensures Preview(ps, id, q1, p1, ts1, v1) == Preview(ps, id, q2, p2, ts2, v2)
  {
  }

  /** The query parameter wins over the row's own `template_id` whenever it
      is present, even when it is falsy. */
  lemma QueryTakesPrecedence(ps: seq<Profile>, id: int, q: int, p1: Option<int>, p2: Option<int>,
                             ts: seq<Template>, views: set<string>)
    ensures Preview(ps, id, Some(q), p1, ts, views) == Preview(ps, id, Some(q), p2, ts, views)
  {
  }

  /** An explicit id that names no active template is refused, even when a
      default template exists: there is no fallback. */
  lemma {:induction false} ExplicitIdNoFallback(ts: seq<Template>, id: int, k: nat)
    requires id != 0 && UniqueTemplateIds(ts)
    requires k < |ts| && ts[k].id == id && !ts[k].isActive
    ensures SelectTemplate(ts, Some(id)) == Err("Template not found or inactive")
  {
    InactiveTemplateNotFound(ts, id, k);
  }

  /** Without an id, an active default template is preferred to an earlier
      active template that is not the default. */
  lemma DefaultPreferred(ts: seq<Template>, k: nat)
    requires k < |ts| && DefaultAndActive(ts[k])
    ensures SelectTemplate(ts, None).Ok? && SelectTemplate(ts, None).value.isDefault
    ensures SelectTemplate(ts, Some(0)) == SelectTemplate(ts, None)
  {
  }

  /** With no default active template, the first active template is used. */
  lemma {:induction false} FallbackToFirstActive(ts: seq<Template>, k: nat)
    requires forall i :: 0 <= i < |ts| ==> !DefaultAndActive(ts[i])
    requires k < |ts| && ts[k].isActive && forall j :: 0 <= j < k ==> !ts[j].isActive
    ensures SelectTemplate(ts, None) == Ok(ts[k])
  {
    var r := SelectTemplate(ts, None);
    assert r.Ok?;
    var i :| 0 <= i < |ts| && ts[i] == r.value && forall j :: 0 <= j < i ==> !Active(ts[j]);
    assert Active(ts[i]);
    assert i == k;
  }
}

=== FILE: print_profile.dfy ===
/** The "Print" page of a Profile in the admin panel (`PrintProfile`): the
    form state it starts with and the guards in front of the PDF service. */
module PrintProfile {
  import opened Wrappers
  import opened Shapes
  import opened CVRepository
  import opened CVPDFService

  /** The page's `$data`: two read-only fields and the chosen template. */
  datatype FormData = FormData(profileName: Option<string>, userId: Option<int>, templateId: Option<int>)

  /** A notification sent to the admin. */
  datatype Notice = Notice(title: string, body: string, success: bool)

  /** Where `generatePdf` sends the browser: back to the page, or away to
      the public URL of the stored file (given here by its path on the
      public disk). */
  datatype PageOutcome =
    | RedirectBack(notice: Notice)
    | RedirectAway(storedPath: string, notice: Notice)

  const TemplateRequired: Notice :=
    Notice("Template Required", "Please select a template before generating the PDF.", false)
  const TemplateMissing: Notice :=
    Notice("Template Not Found", "The selected template is not available.", false)
  const Generated: Notice :=
    Notice("PDF Generated", "The CV PDF has been generated successfully.", true)

  /** `mount($record)`: the page opens with no template chosen. */
  function Mount(record: Profile): (d: FormData)
    ensures d.templateId.None?
    ensures d.profileName == record.name && d.userId == record.userId
  {
    FormData(record.name, record.userId, None)
  }

  /** The text of what the service threw. */
  function ServiceMessage(e: ServiceError): string
    requires e.Rethrown? ==> !e.failure.Rendered?
  {
    match e
    case Runtime(m) => m
    case Rethrown(o) => o.message
  }

  function FailureNotice(e: ServiceError): (n: Notice)
    requires e.Rethrown? ==> !e.failure.Rendered?
    ensures !n.success && n.title == "PDF Generation Failed"
    ensures n.body == "An error occurred while generating the PDF: " + ServiceMessage(e)
  {
    Notice("PDF Generation Failed", "An error occurred while generating the PDF: " + ServiceMessage(e), false)
  }

  /** `generatePdf()` for the page's `record`, with the service's inputs as
      parameters. The service is always asked for a stored file. */
  function GeneratePdf(data: FormData, record: Profile, ts: seq<Template>, views: set<string>,
                       render: RenderJob -> RenderOutcome, uniqueId: string)
    : (o: PageOutcome)
    ensures !TruthyId(data.templateId) ==> o == RedirectBack(TemplateRequired)
    ensures TruthyId(data.templateId) && FindActiveTemplate(ts, data.templateId.value).None? ==>
              o == RedirectBack(TemplateMissing)
    ensures TruthyId(data.templateId) && FindActiveTemplate(ts, data.templateId.value).Some? ==>
              var r := CVPDFService.GeneratePdf(record, FindActiveTemplate(ts, data.templateId.value).value,
                                                true, views, render, uniqueId);
              && (r.Ok? <==> o.RedirectAway?)
              && (r.Ok? ==> o == RedirectAway(r.value.relativePath, Generated))
              && (r.Err? ==> o == RedirectBack(FailureNotice(r.error)))
  {
    if !TruthyId(data.templateId) then RedirectBack(TemplateRequired)
    else
      match FindActiveTemplate(ts, data.templateId.value)
      case None => RedirectBack(TemplateMissing)
      case Some(t) =>
        var r := CVPDFService.GeneratePdf(record, t, true, views, render, uniqueId);
        if r.Ok? then RedirectAway(r.value.relativePath, Generated)
        else
          assert r.error.Rethrown? ==> r.error.failure.OtherFailure?;
          RedirectBack(FailureNotice(r.error))
  }

  /** Right after `mount`, generating asks for a template: nothing is
      looked up or rendered, whatever the templates, views and renderer. */
  lemma MountedPageNeedsTemplate(record: Profile, ts: seq<Template>, views: set<string>,
                                 render: RenderJob -> RenderOutcome, uniqueId: string)
    ensures GeneratePdf(Mount(record), record, ts, views, render, uniqueId) == RedirectBack(TemplateRequired)
  {
  }

  /** An inactive template is refused before the service runs: the views
      and the renderer do not matter. */
  lemma {:induction false} InactiveTemplateSkipsService(data: FormData, record: Profile, ts: seq<Template>, k: nat,
                                                        v1: set<string>, v2: set<string>,
                                                        r1: RenderJob -> RenderOutcome, r2: RenderJob -> RenderOutcome,
                                                        id1: string, id2: string)
    requires UniqueTemplateIds(ts) && TruthyId(data.templateId)
    requires k < |ts| && ts[k].id == data.templateId.value && !ts[k].isActive
    ensures GeneratePdf(data, record, ts, v1, r1, id1) == RedirectBack(TemplateMissing)
    ensures GeneratePdf(data, record, ts, v1, r1, id1) == GeneratePdf(data, record, ts, v2, r2, id2)
  {
    InactiveTemplateNotFound(ts, data.templateId.value, k);
  }

  /** A successful run leaves the page for a newly stored file: the service
      ran in URL mode. */
  lemma SuccessIsStoredFile(data: FormData, record: Profile, ts: seq<Template>, views: set<string>,
                            render: RenderJob -> RenderOutcome, uniqueId: string)
    requires GeneratePdf(data, record, ts, views, render, uniqueId).RedirectAway?
    ensures GeneratePdf(data, record, ts, views, render, uniqueId).storedPath == "cvs/cv_" + uniqueId + ".pdf"
  {
  }

  /** A missing view is shown to the admin with the service's message. */
  lemma MissingViewNotice(data: FormData, record: Profile, ts: seq<Template>, views: set<string>,
                          render: RenderJob -> RenderOutcome, uniqueId: string)
    requires TruthyId(data.templateId) && FindActiveTemplate(ts, data.templateId.value).Some?
    requires ViewPath(FindActiveTemplate(ts, data.templateId.value).value.name) !in views
    ensures GeneratePdf(data, record, ts, views, render, uniqueId) ==
            RedirectBack(Notice("PDF Generation Failed",
                                "An error occurred while generating the PDF: " + ViewMissingText, false))
  {
  }
}

=== FILE: proficiency.dfy ===
/** The two level tables of the mapper: API `proficiencyLevel` integers and
    stored `level` words. */
module Proficiency {
  import opened Wrappers

  /** The five words the stored `level` may hold, in table order. */
  const LevelWords: seq<string> := ["beginner", "intermediate", "advanced", "fluent", "native"]

  /** Inbound: `$levelMap[$lang['proficiencyLevel']] ?? 'beginner'`. */
  function LevelWord(n: Option<int>): (w: string)
    ensures w in LevelWords
    ensures n.Some? && 1 <= n.value <= 5 ==> w == LevelWords[n.value - 1]
    ensures !(n.Some? && 1 <= n.value <= 5) ==> w == "beginner"
  {
    match n
    case Some(1) => "beginner"
    case Some(2) => "intermediate"
    case Some(3) => "advanced"
    case Some(4) => "fluent"
    case Some(5) => "native"
    case _ => "beginner"
  }

  /** Outbound: `$levelMap[$lang['level']] ?? 1`. */
  function LevelNumber(w: Option<string>): (n: int)
    ensures 1 <= n <= 5
    ensures w.Some? && w.value in LevelWords ==> LevelWords[n - 1] == w.value
    ensures !(w.Some? && w.value in LevelWords) ==> n == 1
  {
    match w
    case Some("beginner") => 1
    case Some("intermediate") => 2
    case Some("advanced") => 3
    case Some("fluent") => 4
    case Some("native") => 5
    case _ => 1
  }

  /** A level integer inside the table survives inbound then outbound. */
  lemma NumberRoundTrip(n: int)
    requires 1 <= n <= 5
    ensures LevelNumber(Some(LevelWord(Some(n)))) == n
  {
  }

  /** A known level word survives outbound then inbound. */
  lemma WordRoundTrip(w: string)
    requires w in LevelWords
    ensures LevelWord(Some(LevelNumber(Some(w)))) == w
  {
  }

  /** Outside the table the integer is not restored: it comes back as 1. */
  lemma OutOfRangeNotRestored(n: Option<int>)
    requires !(n.Some? && 1 <= n.value <= 5)
    ensures LevelWord(n) == "beginner"
    ensures LevelNumber(Some(LevelWord(n))) == 1
    ensures Some(LevelNumber(Some(LevelWord(n)))) != n
  {
  }
}

=== FILE: profile_model.dfy ===
/** The Eloquent `Profile` model as the core writes through it: direct
    attribute assignment, mass assignment restricted to `$fillable`, and
    the insert of a new row against the `profiles` table's column rules. */
module ProfileModel {
  import opened Wrappers
  import opened Shapes

  /** An attribute array for a Profile; a missing key sets nothing. */
  datatype ProfilePatch = ProfilePatch(
    userId: Slot<int>,
    name: Slot<string>,
    language: Slot<string>,
    sectionsOrder: Slot<seq<string>>,
    info: Slot<Info>,
    interests: Slot<seq<StoredInterest>>,
    languages: Slot<seq<StoredLanguage>>,
    experiences: Slot<seq<StoredExperience>>,
    projects: Slot<seq<StoredProject>>,
    educations: Slot<seq<Education>>)

  /** One attribute after a write: kept when the key is missing, else the
      given value or null. */
  function SetAttribute<T>(current: Option<T>, s: Slot<T>): (r: Option<T>)
    ensures s.Absent? ==> r == current
    ensures s.Present() ==> r == s.OrNull()
  {
    if s.Absent? then current else s.OrNull()
  }

  /** `$profile->key = value` for every key of `data`: each one is written,
      whether or not the model lists it as fillable. */
  function Assign(p: Profile, data: ProfilePatch): (r: Profile)
    ensures r.id == p.id
    ensures data.userId.Absent? ==> r.userId == p.userId
    ensures data.name.Absent? ==> r.name == p.name
    ensures data.language.Absent? ==> r.language == p.language
    ensures data.sectionsOrder.Absent? ==> r.sectionsOrder == p.sectionsOrder
    ensures data.info.Absent? ==> r.info == p.info
    ensures data.interests.Absent? ==> r.interests == p.interests
    ensures data.languages.Absent? ==> r.languages == p.languages
    ensures data.experiences.Absent? ==> r.experiences == p.experiences
    ensures data.projects.Absent? ==> r.projects == p.projects
    ensures data.educations.Absent? ==> r.educations == p.educations
    ensures data.userId.Present() ==> r.userId == data.userId.OrNull()
    ensures data.name.Present() ==> r.name == data.name.OrNull()
    ensures data.language.Present() ==> r.language == data.language.OrNull()
    ensures data.sectionsOrder.Present() ==> r.sectionsOrder == data.sectionsOrder.OrNull()
    ensures data.info.Present() ==> r.info == data.info.OrNull()
    ensures data.interests.Present() ==> r.interests == data.interests.OrNull()
    ensures data.languages.Present() ==> r.languages == data.languages.OrNull()
    ensures data.experiences.Present() ==> r.experiences == data.experiences.OrNull()
    ensures data.projects.Present() ==> r.projects == data.projects.OrNull()
    ensures data.educations.Present() ==> r.educations == data.educations.OrNull()
  {
    Profile(p.id, SetAttribute(p.userId, data.userId), SetAttribute(p.name, data.name),
            SetAttribute(p.language, data.language), SetAttribute(p.sectionsOrder, data.sectionsOrder),
            SetAttribute(p.info, data.info), SetAttribute(p.interests, data.interests),
            SetAttribute(p.languages, data.languages), SetAttribute(p.experiences, data.experiences),
            SetAttribute(p.projects, data.projects), SetAttribute(p.educations, data.educations))
  }

  /** `Profile::$fillable` lists `user_id` and the six JSON columns; mass
      assignment silently drops `name`, `language` and `sections_order`. */
  function Fillable(data: ProfilePatch): (f: ProfilePatch)
    ensures f.name.Absent? && f.language.Absent? && f.sectionsOrder.Absent?
    ensures f.userId == data.userId && f.info == data.info && f.interests == data.interests
    ensures f.languages == data.languages && f.experiences == data.experiences
    ensures f.projects == data.projects && f.educations == data.educations
  {
    data.(name := Absent, language := Absent, sectionsOrder := Absent)
  }

  /** `$profile->fill($data)`: the fillable keys are assigned, the rest ignored. */
  function Fill(p: Profile, data: ProfilePatch): (r: Profile)
    ensures r.id == p.id
    ensures r.name == p.name && r.language == p.language && r.sectionsOrder == p.sectionsOrder
    ensures data.userId.Absent? ==> r.userId == p.userId
    ensures data.info.Absent? ==> r.info == p.info
    ensures data.interests.Absent? ==> r.interests == p.interests
    ensures data.languages.Absent? ==> r.languages == p.languages
    ensures data.experiences.Absent? ==> r.experiences == p.experiences
    ensures data.projects.Absent? ==> r.projects == p.projects
    ensures data.educations.Absent? ==> r.educations == p.educations
    ensures data.userId.Present() ==> r.userId == data.userId.OrNull()
    ensures data.info.Present() ==> r.info == data.info.OrNull()
    ensures data.interests.Present() ==> r.interests == data.interests.OrNull()
    ensures data.languages.Present() ==> r.languages == data.languages.OrNull()
    ensures data.experiences.Present() ==> r.experiences == data.experiences.OrNull()
    ensures data.projects.Present() ==> r.projects == data.projects.OrNull()
    ensures data.educations.Present() ==> r.educations == data.educations.OrNull()
  {
    Assign(p, Fillable(data))
  }

  /** `fill` and direct assignment agree exactly when the patch writes none
      of the three guarded keys to a new value. */
  lemma FillAgreesWithAssign(p: Profile, data: ProfilePatch)
    ensures Fill(p, data) == Assign(p, data) <==>
              (data.name.Present() ==> data.name.OrNull() == p.name) &&
              (data.language.Present() ==> data.language.OrNull() == p.language) &&
              (data.sectionsOrder.Present() ==> data.sectionsOrder.OrNull() == p.sectionsOrder)
  {
    var f, a := Fill(p, data), Assign(p, data);
    if f == a {
      assert f.name == a.name && f.language == a.language && f.sectionsOrder == a.sectionsOrder;
    }
  }

  /** A Profile with no attribute set. */
  const BlankProfile: Profile := Profile(None, None, None, None, None, None, None, None, None, None, None)

  /** `new Profile($attributes)`: an unsaved model, mass-assigned. */
  function NewModel(attrs: ProfilePatch): (p: Profile)
    ensures p.id.None?
    ensures p.name.None? && p.language.None? && p.sectionsOrder.None?
    ensures p == Assign(BlankProfile, attrs).(name := None, language := None, sectionsOrder := None)
  {
    Fill(BlankProfile, attrs)
  }

  /** Saving a new row under the key `newId`. The `profiles` table makes
      `name` a string with no default, so a row without one is refused, and
      gives `language` the default `en`. */
  function Insert(row: Profile, newId: int): (r: Option<Profile>)
    ensures r.None? <==> row.name.None?
    ensures r.Some? ==>
              && r.value.id == Some(newId)
              && r.value.userId == row.userId && r.value.name == row.name
              && r.value.language == Some(row.language.GetOr("en"))
              && r.value.sectionsOrder == row.sectionsOrder
              && Columns(r.value) == Columns(row)
  {
    if row.name.None? then None
    else Some(row.(id := Some(newId), language := Some(row.language.GetOr("en"))))
  }

  /** `Profile::create($attributes)`: `new Profile($attributes)` then save. */
  function Create(attrs: ProfilePatch, newId: int): (r: Option<Profile>)
    ensures r.Some? ==> r.value.id == Some(newId) && Columns(r.value) == Columns(NewModel(attrs))
  {
    Insert(NewModel(attrs), newId)
  }

  /** `name` is not fillable and has no default, so `Profile::create`
      is refused whatever the attribute array holds. */
  lemma CreateNeverStores(attrs: ProfilePatch, newId: int)
    ensures Create(attrs, newId).None?
  {
  }
}

=== FILE: repository.dfy ===
/** The store lookups the controllers rely on (`CVRepository`), over a
    table given as a sequence of rows in table order. */
module CVRepository {
  import opened Wrappers
  import opened Shapes
  import opened Collections
  import opened ProfileModel

  /** No two saved profiles share an id. */
  predicate UniqueProfileIds(ps: seq<Profile>) {
    forall i, j :: 0 <= i < j < |ps| && ps[i].id.Some? ==> ps[i].id != ps[j].id
  }

  /** No two templates share an id. */
  predicate UniqueTemplateIds(ts: seq<Template>) {
    forall i, j :: 0 <= i < j < |ts| ==> ts[i].id != ts[j].id
  }

  /** PHP truth value of a nullable string: null, "" and "0" are false. */
  predicate Truthy(s: Option<string>) {
    s.Some? && s.value != "" && s.value != "0"
  }

  /** PHP truth value of a nullable id: null and 0 are false. */
  predicate TruthyId(id: Option<int>) {
    id.Some? && id.value != 0
  }

  /** The rows `getAllForUser($userId, $language)` selects. */
  predicate ListedFor(p: Profile, userId: int, language: Option<string>) {
    p.userId == Some(userId) && (Truthy(language) ==> p.language == language)
  }

  function GetAllForUser(ps: seq<Profile>, userId: int, language: Option<string>): (r: seq<Profile>)
    ensures forall p :: p in r ==> p.userId == Some(userId)
    ensures Truthy(language) ==> forall p :: p in r ==> p.language == language
    ensures forall p :: multiset(r)[p] ==
              (if p.userId == Some(userId) && (Truthy(language) ==> p.language == language)
               then multiset(ps)[p] else 0)
  {
    Where(ps, p => ListedFor(p, userId, language))
  }

  /** A falsy language (null, "" or "0") filters nothing: the result is the
      user's whole list. */
  lemma FalsyLanguageIgnored(ps: seq<Profile>, userId: int, language: Option<string>)
    requires !Truthy(language)
    ensures GetAllForUser(ps, userId, language) == GetAllForUser(ps, userId, None)
  {
    WhereAgree(ps, p => ListedFor(p, userId, language), p => ListedFor(p, userId, None));
  }

  function FindByIdForUser(ps: seq<Profile>, id: int, userId: int): (r: Option<Profile>)
    ensures r.Some? ==> r.value in ps && r.value.id == Some(id) && r.value.userId == Some(userId)
    ensures r.None? <==> forall j :: 0 <= j < |ps| ==> !(ps[j].id == Some(id) && ps[j].userId == Some(userId))
  {
    First(ps, (p: Profile) => p.id == Some(id) && p.userId == Some(userId))
  }

  /** Lookup for public access: ownership is not consulted. */
  function FindById(ps: seq<Profile>, id: int): (r: Option<Profile>)
    ensures r.Some? ==> r.value in ps && r.value.id == Some(id)
    ensures r.None? <==> forall j :: 0 <= j < |ps| ==> ps[j].id != Some(id)
  {
    First(ps, (p: Profile) => p.id == Some(id))
  }

  function FindActiveTemplate(ts: seq<Template>, id: int): (r: Option<Template>)
    ensures r.Some? ==> r.value in ts && r.value.id == id && r.value.isActive
    ensures r.None? <==> forall j :: 0 <= j < |ts| ==> !(ts[j].id == id && ts[j].isActive)
  {
    First(ts, (t: Template) => t.id == id && t.isActive)
  }

  /** `Template::find($id)`: by key, active or not. */
  function FindTemplate(ts: seq<Template>, id: int): (r: Option<Template>)
    ensures r.Some? ==> r.value in ts && r.value.id == id
    ensures r.None? <==> forall j :: 0 <= j < |ts| ==> ts[j].id != id
  {
    First(ts, (t: Template) => t.id == id)
  }

  /** With unique ids, the profile found by id is the only row with that id. */
  lemma {:induction false} FindByIdUnique(ps: seq<Profile>, id: int, k: nat)
    requires UniqueProfileIds(ps) && k < |ps| && ps[k].id == Some(id)
    ensures FindById(ps, id) == Some(ps[k])
  {
    var r := FindById(ps, id);
    var i :| 0 <= i < |ps| && ps[i] == r.value && forall j :: 0 <= j < i ==> ps[j].id != Some(id);
    assert !(i < k) && !(k < i);
  }

  /** Another user's profile is invisible to the owner-scoped lookup even
      though it exists, while the public lookup finds it. */
  lemma ForeignProfileHidden(ps: seq<Profile>, id: int, userId: int, k: nat)
    requires UniqueProfileIds(ps) && k < |ps|
    requires ps[k].id == Some(id) && ps[k].userId != Some(userId)
    ensures FindByIdForUser(ps, id, userId).None?
    ensures FindById(ps, id) == Some(ps[k])
  {
    FindByIdUnique(ps, id, k);
  }

  /** What the owner-scoped lookup finds, the public lookup finds too. */
  lemma OwnedLookupAgrees(ps: seq<Profile>, id: int, userId: int)
    requires UniqueProfileIds(ps) && FindByIdForUser(ps, id, userId).Some?
    ensures FindById(ps, id) == FindByIdForUser(ps, id, userId)
  {
    var p := FindByIdForUser(ps, id, userId).value;
    var k :| 0 <= k < |ps| && ps[k] == p;
    FindByIdUnique(ps, id, k);
  }

  /** An inactive template is not found even though its id exists. */
  lemma InactiveTemplateNotFound(ts: seq<Template>, id: int, k: nat)
    requires UniqueTemplateIds(ts) && k < |ts| && ts[k].id == id && !ts[k].isActive
    ensures FindActiveTemplate(ts, id).None?
    ensures FindTemplate(ts, id) == Some(ts[k])
  {
    var r := FindTemplate(ts, id);
    var i :| 0 <= i < |ts| && ts[i] == r.value && forall j :: 0 <= j < i ==> ts[j].id != id;
    assert !(i < k) && !(k < i);
  }

  /** `update($profile, $data)`: `fill` then save, returning the same row.
      Only the fillable keys of `$data` are written. */
  function Update(p: Profile, data: ProfilePatch): (r: Profile)
    ensures r.id == p.id
    ensures r.name == p.name && r.language == p.language && r.sectionsOrder == p.sectionsOrder
    ensures data.userId.Absent? ==> r.userId == p.userId
    ensures data.info.Absent? ==> r.info == p.info
    ensures data.interests.Absent? ==> r.interests == p.interests
    ensures data.languages.Absent? ==> r.languages == p.languages
    ensures data.experiences.Absent? ==> r.experiences == p.experiences
    ensures data.projects.Absent? ==> r.projects == p.projects
    ensures data.educations.Absent? ==> r.educations == p.educations
    ensures data.userId.Present() ==> r.userId == data.userId.OrNull()
    ensures data.info.Present() ==> r.info == data.info.OrNull()
    ensures data.interests.Present() ==> r.interests == data.interests.OrNull()
    ensures data.languages.Present() ==> r.languages == data.languages.OrNull()
    ensures data.experiences.Present() ==> r.experiences == data.experiences.OrNull()
    ensures data.projects.Present() ==> r.projects == data.projects.OrNull()
    ensures data.educations.Present() ==> r.educations == data.educations.OrNull()
  {
    Fill(p, data)
  }
}

=== FILE: shapes.dfy ===
/** The two shapes of a person's CV data: the public API `user_data` shape
    and the storage shape of a Profile row, plus the Template row. */
module Shapes {
  import opened Wrappers

  /** A date accepted by the `date_format:Y-m` rule. */
  datatype YearMonth = YearMonth(year: int, month: int)

  /** `strtotime($a) > strtotime($b)` for two `Y-m` dates: each denotes the
      first instant of its month, so the comparison is lexicographic. */
  predicate After(a: YearMonth, b: YearMonth) {
    a.year > b.year || (a.year == b.year && a.month > b.month)
  }

  // ---------------------------------------------------------------------
  // API shape (`user_data` of requests and responses)
  // ---------------------------------------------------------------------

  datatype Skill = Skill(name: Option<string>)

  /** Education entries have the same shape on both sides. */
  datatype Education = Education(
    institution: Option<string>,
    degree: Option<string>,
    fieldOfStudy: Option<string>,
    description: Option<string>,
    from: Option<YearMonth>,
    to: Option<YearMonth>)

  /** `current` is modelled by its PHP truth value. */
  datatype ApiExperience = ApiExperience(
    position: Option<string>,
    company: Option<string>,
    location: Option<string>,
    description: Option<string>,
    from: Option<YearMonth>,
    to: Option<YearMonth>,
    current: Option<bool>)

  datatype ApiProject = ApiProject(
    title: Option<string>,
    description: Option<string>,
    technologies: Option<string>,
    url: Option<string>,
    from: Option<YearMonth>,
    to: Option<YearMonth>,
    current: Option<bool>)

  datatype ApiLanguage = ApiLanguage(name: Option<string>, proficiencyLevel: Option<int>)

  datatype ApiInterest = ApiInterest(name: Option<string>)

  /** The `user_data` array: every key may be missing, null or given. */
  datatype UserData = UserData(
    firstName: Slot<string>,
    lastName: Slot<string>,
    jobTitle: Slot<string>,
    email: Slot<string>,
    address: Slot<string>,
    portfolioUrl: Slot<string>,
    phone: Slot<string>,
    summary: Slot<string>,
    birthdate: Slot<string>,
    skills: Slot<seq<Skill>>,
    educations: Slot<seq<Education>>,
    experiences: Slot<seq<ApiExperience>>,
    projects: Slot<seq<ApiProject>>,
    languages: Slot<seq<ApiLanguage>>,
    interests: Slot<seq<ApiInterest>>)
  {
    /** `empty($userData)`: no key at all, not even one holding null. */
    predicate IsEmpty() {
      && firstName.Absent? && lastName.Absent? && jobTitle.Absent?
      && email.Absent? && address.Absent? && portfolioUrl.Absent?
      && phone.Absent? && summary.Absent? && birthdate.Absent?
      && skills.Absent? && educations.Absent? && experiences.Absent?
      && projects.Absent? && languages.Absent? && interests.Absent?
    }

    /** None of the nine personal keys is in the array. */
    predicate NoPersonalKeys() {
      && firstName.Absent? && lastName.Absent? && jobTitle.Absent?
      && email.Absent? && address.Absent? && portfolioUrl.Absent?
      && phone.Absent? && summary.Absent? && birthdate.Absent?
    }

    /** All nine personal keys are in the array (possibly null). */
    predicate AllPersonalKeys() {
      && firstName.Present() && lastName.Present() && jobTitle.Present()
      && email.Present() && address.Present() && portfolioUrl.Present()
      && phone.Present() && summary.Present() && birthdate.Present()
    }
  }

  /** `[]`, what `$request->input('user_data', [])` yields for a missing key. */
  const EmptyUserData: UserData :=
    UserData(Absent, Absent, Absent, Absent, Absent, Absent, Absent, Absent,
             Absent, Absent, Absent, Absent, Absent, Absent, Absent)

  // ---------------------------------------------------------------------
  // Storage shape (JSON columns of a Profile row)
  // ---------------------------------------------------------------------

  /** The `info` column. */
  datatype Info = Info(
    firstName: Option<string>,
    lastName: Option<string>,
    jobTitle: Option<string>,
    email: Option<string>,
    address: Option<string>,
    portfolioUrl: Option<string>,
    phone: Option<string>,
    summary: Option<string>,
    birthdate: Option<string>,
    skills: Option<seq<Skill>>)

  /** `name` holds the API's `company`; `currentlyWorkingHere` its `current`. */
  datatype StoredExperience = StoredExperience(
    position: Option<string>,
    name: Option<string>,
    location: Option<string>,
    description: Option<string>,
    from: Option<YearMonth>,
    to: Option<YearMonth>,
    currentlyWorkingHere: Option<bool>)

  /** `name` holds the API's `title`. */
  datatype StoredProject = StoredProject(
    name: Option<string>,
    description: Option<string>,
    url: Option<string>,
    from: Option<YearMonth>,
    to: Option<YearMonth>)

  /** `language` holds the API's `name`; `level` a level word. */
  datatype StoredLanguage = StoredLanguage(language: Option<string>, level: Option<string>)

  /** `interest` holds the API's `name`. */
  datatype StoredInterest = StoredInterest(interest: Option<string>)

  /** The array returned by the inbound mapper: `None` is a key it did not set. */
  datatype MappedData = MappedData(
    info: Option<Info>,
    educations: Option<seq<Education>>,
    experiences: Option<seq<StoredExperience>>,
    projects: Option<seq<StoredProject>>,
    languages: Option<seq<StoredLanguage>>,
    interests: Option<seq<StoredInterest>>)

  /** A Profile row (or an unsaved in-memory Profile, whose `id` is null).
      A JSON column holding `[]` reads back as an empty sequence; an `info`
      column holding `[]` is modelled as `None`, since PHP treats both as
      falsy and nothing else reads it. */
  datatype Profile = Profile(
    id: Option<int>,
    userId: Option<int>,
    name: Option<string>,
    language: Option<string>,
    sectionsOrder: Option<seq<string>>,
    info: Option<Info>,
    interests: Option<seq<StoredInterest>>,
    languages: Option<seq<StoredLanguage>>,
    experiences: Option<seq<StoredExperience>>,
    projects: Option<seq<StoredProject>>,
    educations: Option<seq<Education>>)

  /** `new Profile([... 'info' => $mappedData['info'] ?? null, ...])`: every
      JSON column comes from the mapped array, null where it set no key. */
  function NewProfile(id: Option<int>, userId: Option<int>, name: Option<string>,
                      language: Option<string>, sectionsOrder: Option<seq<string>>,
                      m: MappedData): Profile
  {
    Profile(id, userId, name, language, sectionsOrder, m.info, m.interests,
            m.languages, m.experiences, m.projects, m.educations)
  }

  /** The six JSON columns of a Profile, as the mapped array that would set them. */
  function Columns(p: Profile): MappedData {
    MappedData(p.info, p.educations, p.experiences, p.projects, p.languages, p.interests)
  }

  /** A Template row. */
  datatype Template = Template(
    id: int,
    name: string,
    preview: string,
    description: Option<string>,
    isActive: bool,
    isDefault: bool)

  /** The array built by `formatProfileResponse` (timestamps left out). */
  datatype ProfileResponse = ProfileResponse(
    id: Option<int>,
    userId: Option<int>,
    name: Option<string>,
    language: Option<string>,
    sectionsOrder: Option<seq<string>>,
    userData: UserData)
}

=== FILE: template_form.dfy ===
/** The template form of the admin panel (`TemplateForm`): the defaults of
    a new template, and the rule that checking "Default Template" clears the
    flag on every other template. */
module TemplateForm {
  import opened Wrappers
  import opened Shapes
  import opened CVRepository
  import ProfilePreview

  /** A template created from the form with the checkboxes left alone:
      active, not default. */
  function NewTemplate(id: int, name: string, preview: string, description: Option<string>): (t: Template)
    ensures t.isActive && !t.isDefault
    ensures t.id == id && t.name == name && t.preview == preview && t.description == description
  {
    Template(id, name, preview, description, true, false)
  }

  /** The `afterStateUpdated` hook of `is_default`, run against the table
      `ts`. `state` is the new checkbox state; `record` the id of the
      template being edited, none on the create page. */
  function UnsetOtherDefaults(ts: seq<Template>, state: bool, record: Option<int>): (r: seq<Template>)
    ensures |r| == |ts|
    // only the flag is written
    ensures forall i :: 0 <= i < |ts| ==> r[i] == ts[i].(isDefault := r[i].isDefault)
    // unchecking writes nothing
    ensures !state ==> r == ts
    // checking clears every default except the edited record's
    ensures state ==> forall i :: 0 <= i < |ts| ==>
              (r[i].isDefault <==> ts[i].isDefault && record.Some? && ts[i].id == record.value)
  {
    if |ts| == 0 then []
    else
      var t := ts[0];
      var cleared := state && t.isDefault && !(record.Some? && t.id == record.value);
      [if cleared then t.(isDefault := false) else t] + UnsetOtherDefaults(ts[1..], state, record)
  }

  /** After the hook and the save of an edited, checked record, only that
      record is default. */
  function SaveDefault(ts: seq<Template>, record: int): (r: seq<Template>)
    ensures |r| == |ts|
    ensures forall i :: 0 <= i < |ts| ==> r[i] == ts[i].(isDefault := r[i].isDefault)
    ensures forall i :: 0 <= i < |ts| ==> (r[i].isDefault <==> ts[i].id == record)
  {
    var cleared := UnsetOtherDefaults(ts, true, Some(record));
    seq(|cleared|, i requires 0 <= i < |cleared| =>
          if cleared[i].id == record then cleared[i].(isDefault := true) else cleared[i])
  }

  /** With unique ids, saving a checked record leaves at most one default. */
  lemma AtMostOneDefault(ts: seq<Template>, record: int)
    requires UniqueTemplateIds(ts)
    ensures var r := SaveDefault(ts, record);
            forall i, j :: 0 <= i < |r| && 0 <= j < |r| && r[i].isDefault && r[j].isDefault ==> i == j
  {
  }

  /** On the create page the hook clears every default, and the new
      template, once saved, is the only one. */
  lemma CreateAsDefault(ts: seq<Template>, t: Template)
    requires t.isDefault
    ensures var r := UnsetOtherDefaults(ts, true, None) + [t];
            forall i :: 0 <= i < |r| ==> (r[i].isDefault <==> i == |ts|)
  {
  }

  /** Once the hook has run for a checked box, unchecking the box does not
      restore the defaults it cleared: no template other than the record
      is left default. */
  lemma ToggleOnThenOffLosesDefault(ts: seq<Template>, record: Option<int>)
    ensures var r := UnsetOtherDefaults(UnsetOtherDefaults(ts, true, record), false, record);
            forall i :: 0 <= i < |r| && r[i].isDefault ==> record.Some? && r[i].id == record.value
  {
  }

  /** Clearing the defaults never changes which templates are active, so
      the preview's fallback to the first active template still finds one. */
  lemma {:induction false} ClearingKeepsActive(ts: seq<Template>, record: Option<int>, k: nat)
    requires k < |ts| && ts[k].isActive
    ensures ProfilePreview.SelectTemplate(UnsetOtherDefaults(ts, true, record), None).Ok?
  {
    var r := UnsetOtherDefaults(ts, true, record);
    assert ProfilePreview.Active(r[k]);
  }

  /** A template added with the form's defaults is picked by the preview
      when no other template is active. */
  lemma {:induction false} NewTemplateServesPreview(ts: seq<Template>, id: int, name: string, preview: string,
                                                    description: Option<string>)
    requires forall i :: 0 <= i < |ts| ==> !ts[i].isActive
    ensures ProfilePreview.SelectTemplate(ts + [NewTemplate(id, name, preview, description)], None) ==
            Ok(NewTemplate(id, name, preview, description))
  {
    var t := NewTemplate(id, name, preview, description);
    var us := ts + [t];
    assert forall i :: 0 <= i < |us| ==> !ProfilePreview.DefaultAndActive(us[i]);
    ProfilePreview.FallbackToFirstActive(us, |ts|);
  }
}

=== FILE: validation.dfy ===
/** The checks `UpdateCVRequest` and `PrintCVRequest` make before a
    controller action runs: the enumerations and bounds of their rule
    lists, and the cross-field checks of their `after` hooks. Errors are
    listed in the order they are added to the bag. */
module CVValidation {
  import opened Wrappers
  import opened Shapes
  import opened ErrorPaths
  import opened CVRepository

  // ---------------------------------------------------------------------
  // Date ranges (the `after` hook shared by both requests)
  // ---------------------------------------------------------------------

  /** The three keys of a list entry the date check reads. */
  datatype Span = Span(from: Option<YearMonth>, to: Option<YearMonth>, current: Option<bool>)

  /** Experiences and projects skip the check when `current ?? false` is
      truthy; educations are always checked. */
  predicate HonoursCurrent(sec: Section) {
    sec != Educations
  }

  /** Both dates set, not exempted by `current`, and `from` strictly after `to`. */
  predicate Reversed(s: Span, sec: Section) {
    && s.from.Some? && s.to.Some?
    && !(HonoursCurrent(sec) && s.current.GetOr(false))
    && After(s.from.value, s.to.value)
  }

  /** Entry `i` of list `sec` of `user_data` carries a reversed range. */
  predicate Offends(u: UserData, sec: Section, i: nat) {
    match sec
    case Educations =>
      u.educations.Given? && i < |u.educations.value| &&
      var e := u.educations.value[i];
      e.from.Some? && e.to.Some? && After(e.from.value, e.to.value)
    case Experiences =>
      u.experiences.Given? && i < |u.experiences.value| &&
      var e := u.experiences.value[i];
      e.from.Some? && e.to.Some? && !e.current.GetOr(false) && After(e.from.value, e.to.value)
    case Projects =>
      u.projects.Given? && i < |u.projects.value| &&
      var p := u.projects.value[i];
      p.from.Some? && p.to.Some? && !p.current.GetOr(false) && After(p.from.value, p.to.value)
  }

  /** The entries of one list as the check sees them; a list that is not
      set is skipped. */
  function Spans(u: UserData, sec: Section): (ss: seq<Span>)
    ensures forall i :: 0 <= i < |ss| ==> (Reversed(ss[i], sec) <==> Offends(u, sec, i))
    ensures forall i: nat :: |ss| <= i ==> !Offends(u, sec, i)
  {
    match sec
    case Educations =>
      if u.educations.Given?
      then seq(|u.educations.value|, i requires 0 <= i < |u.educations.value| =>
                 Span(u.educations.value[i].from, u.educations.value[i].to, None))
      else []
    case Experiences =>
      if u.experiences.Given?
      then seq(|u.experiences.value|, i requires 0 <= i < |u.experiences.value| =>
                 Span(u.experiences.value[i].from, u.experiences.value[i].to,
                      u.experiences.value[i].current))
      else []
    case Projects =>
      if u.projects.Given?
      then seq(|u.projects.value|, i requires 0 <= i < |u.projects.value| =>
                 Span(u.projects.value[i].from, u.projects.value[i].to, u.projects.value[i].current))
      else []
  }

  /** One error per reversed entry, at `user_data.{sec}.{i}.to`, in index
      order: the loop has no early exit. */
  function SectionErrors(ss: seq<Span>, sec: Section): (r: seq<ErrorKey>)
    ensures |r| <= |ss|
    ensures forall k :: 0 <= k < |r| ==>
              r[k].DateRangeKey? && r[k].section == sec && r[k].index < |ss| &&
              Reversed(ss[r[k].index], sec)
    ensures forall i :: 0 <= i < |ss| && Reversed(ss[i], sec) ==> DateRangeKey(sec, i) in r
    ensures forall a, b :: 0 <= a < b < |r| ==> r[a].index < r[b].index
  {
    if |ss| == 0 then []
    else
      var n := |ss| - 1;
      SectionErrors(ss[..n], sec) + (if Reversed(ss[n], sec) then [DateRangeKey(sec, n)] else [])
  }

  /** The `foreach` over one list, adding an error for each reversed entry. */
  method CollectSectionErrors(ss: seq<Span>, sec: Section) returns (errs: seq<ErrorKey>)
    ensures errs == SectionErrors(ss, sec)
  {
    errs := [];
    for i := 0 to |ss|
      invariant errs == SectionErrors(ss[..i], sec)
    {
      assert ss[..i + 1][..i] == ss[..i] && ss[..i + 1][i] == ss[i];
      assert SectionErrors(ss[..i + 1], sec) ==
             SectionErrors(ss[..i], sec) + (if Reversed(ss[i], sec) then [DateRangeKey(sec, i)] else []);
      if Reversed(ss[i], sec) {
        errs := errs + [DateRangeKey(sec, i)];
      }
    }
    assert ss[..|ss|] == ss;
  }

  function SectionRank(sec: Section): nat {
    match sec
    case Educations => 0
    case Experiences => 1
    case Projects => 2
  }

  /** Two date-range keys in the order the hook adds them. */
  predicate DateKeyBefore(a: ErrorKey, b: ErrorKey)
    requires a.DateRangeKey? && b.DateRangeKey?
  {
    SectionRank(a.section) < SectionRank(b.section) ||
    (a.section == b.section && a.index < b.index)
  }

  /** A list of date-range keys in the order the hook adds them. */
  predicate InHookOrder(r: seq<ErrorKey>) {
    && (forall k :: k in r ==> k.DateRangeKey?)
    && (forall a, b :: 0 <= a < b < |r| ==> DateKeyBefore(r[a], r[b]))
  }

  /** The errors of one list of `user_data`. */
  function ListDateErrors(u: UserData, sec: Section): (r: seq<ErrorKey>)
    ensures InHookOrder(r)
    ensures forall k :: k in r ==> k.section == sec
    ensures forall i: nat :: DateRangeKey(sec, i) in r <==> Offends(u, sec, i)
  {
    var ss := Spans(u, sec);
    var r := SectionErrors(ss, sec);
    assert forall i: nat :: DateRangeKey(sec, i) in r ==> i < |ss| && Reversed(ss[i], sec);
    r
  }

  lemma HookOrderConcat(a: seq<ErrorKey>, b: seq<ErrorKey>)
    requires InHookOrder(a) && InHookOrder(b)
    requires forall x, y :: x in a && y in b ==> SectionRank(x.section) < SectionRank(y.section)
    ensures InHookOrder(a + b)
  {
    var c := a + b;
    forall i, j | 0 <= i < j < |c|
      ensures DateKeyBefore(c[i], c[j])
    {
      if j < |a| {
        assert c[i] == a[i] && c[j] == a[j];
      } else if |a| <= i {
        assert c[i] == b[i - |a|] && c[j] == b[j - |a|];
      } else {
        assert c[i] == a[i] && c[i] in a && c[j] == b[j - |a|] && c[j] in b;
      }
    }
  }

  /** The date errors of `$this->input('user_data', [])`: educations, then
      experiences, then projects. A missing or null `user_data` has none. */
  function DateErrors(userData: Slot<UserData>): (r: seq<ErrorKey>)
    ensures forall k :: k in r ==> k.DateRangeKey?
    ensures forall sec, i :: DateRangeKey(sec, i) in r <==> userData.Given? && Offends(userData.value, sec, i)
    ensures forall a, b :: 0 <= a < b < |r| ==> DateKeyBefore(r[a], r[b])
  {
    if userData.Given? then
      var u := userData.value;
      var ed := ListDateErrors(u, Educations);
      var ex := ListDateErrors(u, Experiences);
      var pr := ListDateErrors(u, Projects);
      HookOrderConcat(ed, ex);
      HookOrderConcat(ed + ex, pr);
      ed + ex + pr
    else []
  }

  /** The comparison is strict: equal dates are never reported. */
  lemma EqualDatesNeverReported(u: UserData, sec: Section, i: nat)
    requires i < |Spans(u, sec)| && Spans(u, sec)[i].from == Spans(u, sec)[i].to
    ensures DateRangeKey(sec, i) !in DateErrors(Given(u))
  {
    assert !Reversed(Spans(u, sec)[i], sec);
  }

  /** A current experience or project is exempt whatever its dates. */
  lemma CurrentEntryExempt(u: UserData, sec: Section, i: nat)
    requires sec != Educations && i < |Spans(u, sec)| && Spans(u, sec)[i].current == Some(true)
    ensures DateRangeKey(sec, i) !in DateErrors(Given(u))
  {
    assert !Reversed(Spans(u, sec)[i], sec);
  }

  /** A reversed experience alone in `user_data` is the only date error. */
  lemma SingleReversedExperience(e: ApiExperience)
    requires e.from.Some? && e.to.Some? && After(e.from.value, e.to.value)
    requires e.current.GetOr(false) == false
    ensures DateErrors(Given(EmptyUserData.(experiences := Given([e])))) == [DateRangeKey(Experiences, 0)]
  {
    var u := EmptyUserData.(experiences := Given([e]));
    var ss := Spans(u, Experiences);
    assert ss == [Span(e.from, e.to, e.current)];
    assert ss[..0] == [];
    assert SectionErrors(ss, Experiences) == [DateRangeKey(Experiences, 0)];
    assert ListDateErrors(u, Educations) == [];
    assert ListDateErrors(u, Projects) == [];
    assert DateErrors(Given(u)) == [] + [DateRangeKey(Experiences, 0)] + [];
  }

  /** An experience from 2024-06 to 2024-01 is reported at
      `user_data.experiences.0.to`, and nothing else is. */
  lemma ReversedExperienceReported(e: ApiExperience)
    requires e.from == Some(YearMonth(2024, 6)) && e.to == Some(YearMonth(2024, 1))
    requires e.current.GetOr(false) == false
    ensures var u := EmptyUserData.(experiences := Given([e]));
            DateErrors(Given(u)) == [DateRangeKey(Experiences, 0)] &&
            Path(DateErrors(Given(u))[0]) == "user_data.experiences.0.to"
  {
    SingleReversedExperience(e);
    FirstExperiencePath();
  }

  // ---------------------------------------------------------------------
  // Rule enumerations and bounds
  // ---------------------------------------------------------------------

  /** `in:en,ar,tr` */
  const SupportedLanguages: set<string> := {"en", "ar", "tr"}

  /** `integer|min:1|max:5`, with `required_with:user_data.languages`. */
  predicate ValidProficiency(n: Option<int>) {
    n.Some? && 1 <= n.value <= 5
  }

  /** `sometimes|string|max:m`: a missing key passes; null fails `string`. */
  predicate OptionalString(s: Slot<string>, m: nat) {
    s.Absent? || (s.Given? && |s.value| <= m)
  }

  /** The characters PHP's `trim` strips. */
  predicate TrimmedChar(c: char) {
    c == ' ' || c == '\t' || c == '\n' || c == '\r' || c == '\0' || c == '\U{000B}'
  }

  /** A string the `required` rule rejects: nothing left after `trim`. */
  predicate Blank(s: string) {
    forall i :: 0 <= i < |s| ==> TrimmedChar(s[i])
  }

  /** `required|string|max:m`. */
  predicate RequiredString(s: Slot<string>, m: nat) {
    s.Given? && !Blank(s.value) && |s.value| <= m
  }

  /** One `proficiencyLevel` error per language entry that fails, in order. */
  function ProficiencyErrors(ls: seq<ApiLanguage>): (r: seq<ErrorKey>)
    ensures forall k :: k in r ==> k.ProficiencyKey?
    ensures forall i: nat :: ProficiencyKey(i) in r <==> i < |ls| && !ValidProficiency(ls[i].proficiencyLevel)
  {
    if |ls| == 0 then []
    else
      var n := |ls| - 1;
      ProficiencyErrors(ls[..n])
        + (if ValidProficiency(ls[n].proficiencyLevel) then [] else [ProficiencyKey(n)])
  }

  function LanguageListErrors(u: UserData): (r: seq<ErrorKey>)
    ensures forall k :: k in r ==> k.ProficiencyKey?
    ensures forall i: nat :: ProficiencyKey(i) in r <==>
              u.languages.Given? && i < |u.languages.value| &&
              !ValidProficiency(u.languages.value[i].proficiencyLevel)
  {
    if u.languages.Given? then ProficiencyErrors(u.languages.value) else []
  }

  /** `sometimes|array` on a list of `user_data`: a missing key passes, and
      so does any array; only a null fails. */
  predicate ListIsNull(u: UserData, l: UserList) {
    match l
    case SkillsList => u.skills.Null?
    case EducationsList => u.educations.Null?
    case ExperiencesList => u.experiences.Null?
    case ProjectsList => u.projects.Null?
    case LanguagesList => u.languages.Null?
    case InterestsList => u.interests.Null?
  }

  /** Whether the rules on the lists of a given `user_data` report `k`:
      a null list, or a language entry without a level in 1..5. */
  predicate ListRuleFails(u: UserData, k: ErrorKey) {
    match k
    case ListKey(l) => ListIsNull(u, l)
    case ProficiencyKey(i) =>
      u.languages.Given? && i < |u.languages.value| && !ValidProficiency(u.languages.value[i].proficiencyLevel)
    case _ => false
  }

  /** The `sometimes|array` errors of the lists `ls`, in that order. */
  function NullListErrors(u: UserData, ls: seq<UserList>): (e: seq<ErrorKey>)
    ensures forall k :: k in e <==> k.ListKey? && k.list in ls && ListIsNull(u, k.list)
  {
    if |ls| == 0 then []
    else FailsWith(ListIsNull(u, ls[0]), ListKey(ls[0])) + NullListErrors(u, ls[1..])
  }

  /** The list rules, in rule order: the level rules of `languages` come
      after its own rule and before `interests`. */
  function ListRuleErrors(u: UserData): (e: seq<ErrorKey>)
    ensures forall k :: k in e <==> ListRuleFails(u, k)
    ensures forall k :: k in e ==> k.ListKey? || k.ProficiencyKey?
    ensures forall k :: k in e ==> !k.ProfileIdKey? && !k.TemplateIdKey? && !k.DateRangeKey? && !k.NameKey? && !k.LanguageKey?
  {
    var before := NullListErrors(u, [SkillsList, EducationsList, ExperiencesList, ProjectsList, LanguagesList]);
    var after := NullListErrors(u, [InterestsList]);
    assert forall l :: l in [SkillsList, EducationsList, ExperiencesList, ProjectsList, LanguagesList] <==> l != InterestsList;
    before + LanguageListErrors(u) + after
  }

  /** The error `k` when a rule fails, nothing when it passes. */
  function FailsWith(failed: bool, k: ErrorKey): (e: seq<ErrorKey>)
    ensures forall x :: x in e <==> failed && x == k
  {
    if failed then [k] else []
  }

  // ---------------------------------------------------------------------
  // UpdateCVRequest
  // ---------------------------------------------------------------------

  /** The keys of an update request the model validates. */
  datatype UpdateRequest = UpdateRequest(
    name: Slot<string>,
    language: Slot<string>,
    sectionsOrder: Slot<seq<string>>,
    userData: Slot<UserData>)

  /** Whether the rule list of `UpdateCVRequest` reports `k` for a
      top-level key: `name` is `sometimes|string|max:255`, `language`
      `sometimes|string|in:en,ar,tr`, `sections_order` and `user_data`
      `sometimes|array`. */
  predicate TopRuleFails(r: UpdateRequest, k: ErrorKey) {
    match k
    case NameKey => !OptionalString(r.name, 255)
    case LanguageKey => r.language.Null? || (r.language.Given? && r.language.value !in SupportedLanguages)
    case SectionsOrderKey => r.sectionsOrder.Null?
    case UserDataKey => r.userData.Null?
    case _ => false
  }

  /** Whether the rule list reports `k` for a named string of a given
      `user_data`: `firstName`, `lastName` and `jobTitle` are
      `sometimes|string|max:255`. */
  predicate NameRuleFails(u: UserData, k: ErrorKey) {
    match k
    case FirstNameKey => !OptionalString(u.firstName, 255)
    case LastNameKey => !OptionalString(u.lastName, 255)
    case JobTitleKey => !OptionalString(u.jobTitle, 255)
    case _ => false
  }

  /** Whether the rule list reports `k` for a key inside a given `user_data`. */
  predicate UserDataRuleFails(u: UserData, k: ErrorKey) {
    NameRuleFails(u, k) || ListRuleFails(u, k)
  }

  predicate UpdateRuleFails(r: UpdateRequest, k: ErrorKey) {
    TopRuleFails(r, k) || (r.userData.Given? && UserDataRuleFails(r.userData.value, k))
  }

  /** The rules on the keys inside a given `user_data`. */
  function UpdateUserDataErrors(u: UserData): (e: seq<ErrorKey>)
    ensures forall k :: k in e <==> UserDataRuleFails(u, k)
  {
    var names := FailsWith(!OptionalString(u.firstName, 255), FirstNameKey)
      + FailsWith(!OptionalString(u.lastName, 255), LastNameKey)
      + FailsWith(!OptionalString(u.jobTitle, 255), JobTitleKey);
    assert forall k :: k in names <==> NameRuleFails(u, k);
    names + ListRuleErrors(u)
  }

  /** The rules on the top-level keys of an update request. */
  function UpdateTopErrors(r: UpdateRequest): (e: seq<ErrorKey>)
    ensures forall k :: k in e <==> TopRuleFails(r, k)
  {
    FailsWith(!OptionalString(r.name, 255), NameKey)
      + FailsWith(r.language.Null? || (r.language.Given? && r.language.value !in SupportedLanguages),
                  LanguageKey)
      + FailsWith(r.sectionsOrder.Null?, SectionsOrderKey)
      + FailsWith(r.userData.Null?, UserDataKey)
  }

  /** The rule-list errors, in rule order: exactly the failing rules. */
  function UpdateRuleErrors(r: UpdateRequest): (e: seq<ErrorKey>)
    ensures forall k :: k in e <==> UpdateRuleFails(r, k)
  {
    UpdateTopErrors(r) + (if r.userData.Given? then UpdateUserDataErrors(r.userData.value) else [])
  }

  /** Every error an update request collects: rule errors, then the hook's. */
  function UpdateErrors(r: UpdateRequest): (e: seq<ErrorKey>)
    ensures forall k: ErrorKey :: !k.DateRangeKey? ==> (k in e <==> UpdateRuleFails(r, k))
    ensures forall sec, i :: DateRangeKey(sec, i) in e <==>
              r.userData.Given? && Offends(r.userData.value, sec, i)
  {
    var rules, dates := UpdateRuleErrors(r), DateErrors(r.userData);
    assert forall k :: k in rules ==> !k.DateRangeKey?;
    rules + dates
  }

  /** A language outside `en`, `ar`, `tr` is rejected, and one of them is not. */
  lemma LanguageEnumeration(r: UpdateRequest, l: string)
    requires r.language == Given(l)
    ensures LanguageKey in UpdateErrors(r) <==> l !in SupportedLanguages
  {
    assert UpdateRuleFails(r, LanguageKey) <==> l !in SupportedLanguages;
  }

  // ---------------------------------------------------------------------
  // PrintCVRequest
  // ---------------------------------------------------------------------

  /** The keys of a print request the model reads. `name`, `language` and
      `sections_order` have no rule; the controller reads them unchecked. */
  datatype PrintRequest = PrintRequest(
    profileId: Slot<int>,
    templateId: Slot<int>,
    userData: Slot<UserData>,
    name: Slot<string>,
    language: Slot<string>,
    sectionsOrder: Slot<seq<string>>)

  /** `required_without:profile_id|array`: a null is never an array; a
      missing or empty one fails `required` when `profile_id` is not filled. */
  predicate UserDataRejected(r: PrintRequest) {
    r.userData.Null? ||
    (!r.profileId.Given? && (r.userData.Absent? || r.userData.value.IsEmpty()))
  }

  /** `user_data` passes `required`, which makes the name keys required. */
  predicate NamesRequired(r: PrintRequest) {
    r.userData.Given? && !r.userData.value.IsEmpty()
  }

  /** The rules on `profile_id` and `template_id`; `exists` is checked
      against the given tables. */
  function PrintIdErrors(r: PrintRequest, ps: seq<Profile>, ts: seq<Template>): (e: seq<ErrorKey>)
    ensures ProfileIdKey in e <==> r.profileId.Given? && FindById(ps, r.profileId.value).None?
    ensures TemplateIdKey in e <==> !r.templateId.Given? || FindTemplate(ts, r.templateId.value).None?
    ensures forall k :: k in e ==> k.ProfileIdKey? || k.TemplateIdKey?
  {
    FailsWith(r.profileId.Given? && FindById(ps, r.profileId.value).None?, ProfileIdKey)
      + FailsWith(!r.templateId.Given? || FindTemplate(ts, r.templateId.value).None?, TemplateIdKey)
  }

  /** Whether the rules on `user_data` and the keys inside it report `k`:
      `user_data` itself, its names and `jobTitle`, then the list rules
      when it is an array. */
  predicate PrintUserDataFails(r: PrintRequest, k: ErrorKey) {
    match k
    case UserDataKey => UserDataRejected(r)
    case FirstNameKey => NamesRequired(r) && !RequiredString(r.userData.value.firstName, 255)
    case LastNameKey => NamesRequired(r) && !RequiredString(r.userData.value.lastName, 255)
    case JobTitleKey => r.userData.Given? && !OptionalString(r.userData.value.jobTitle, 255)
    case ListKey(l) => r.userData.Given? && ListIsNull(r.userData.value, l)
    case _ => r.userData.Given? && ListRuleFails(r.userData.value, k)
  }

  /** The rules on `user_data` and the keys inside it: exactly the failing ones. */
  function PrintUserDataErrors(r: PrintRequest): (e: seq<ErrorKey>)
    ensures forall k :: k in e <==> PrintUserDataFails(r, k)
  {
    var names, lists := PrintNameErrors(r), PrintListErrors(r);
    assert forall k :: k in names <==>
             (k.UserDataKey? || k.FirstNameKey? || k.LastNameKey? || k.JobTitleKey?) && PrintUserDataFails(r, k);
    assert forall k :: k in lists <==> (k.ListKey? || k.ProficiencyKey?) && PrintUserDataFails(r, k);
    names + lists
  }

  /** The list rules, checked only when `user_data` is an array. */
  function PrintListErrors(r: PrintRequest): (e: seq<ErrorKey>)
    ensures forall k :: k in e <==> r.userData.Given? && ListRuleFails(r.userData.value, k)
  {
    if r.userData.Given? then ListRuleErrors(r.userData.value) else []
  }

  /** The rules on `user_data` itself and its three named strings. */
  function PrintNameErrors(r: PrintRequest): (e: seq<ErrorKey>)
    ensures UserDataKey in e <==> UserDataRejected(r)
    ensures FirstNameKey in e <==> NamesRequired(r) && !RequiredString(r.userData.value.firstName, 255)
    ensures LastNameKey in e <==> NamesRequired(r) && !RequiredString(r.userData.value.lastName, 255)
    ensures JobTitleKey in e <==> r.userData.Given? && !OptionalString(r.userData.value.jobTitle, 255)
    ensures forall k :: k in e ==> k.UserDataKey? || k.FirstNameKey? || k.LastNameKey? || k.JobTitleKey?
    ensures forall k :: k in e ==> !k.ProfileIdKey? && !k.TemplateIdKey? && !k.DateRangeKey? && !k.NameKey? && !k.LanguageKey?
  {
    FailsWith(UserDataRejected(r), UserDataKey)
      + FailsWith(NamesRequired(r) && !RequiredString(r.userData.value.firstName, 255), FirstNameKey)
      + FailsWith(NamesRequired(r) && !RequiredString(r.userData.value.lastName, 255), LastNameKey)
      + FailsWith(r.userData.Given? && !OptionalString(r.userData.value.jobTitle, 255), JobTitleKey)
  }

  /** The rule-list errors, in rule order. */
  function PrintRuleErrors(r: PrintRequest, ps: seq<Profile>, ts: seq<Template>): (e: seq<ErrorKey>)
    ensures forall k :: k in e && (k.ProfileIdKey? || k.TemplateIdKey?) <==> k in PrintIdErrors(r, ps, ts)
    ensures forall k :: k in e && !(k.ProfileIdKey? || k.TemplateIdKey?) <==> k in PrintUserDataErrors(r)
    ensures forall k :: k in e ==> !k.DateRangeKey? && !k.NameKey? && !k.LanguageKey?
    ensures UserDataKey in e <==> UserDataRejected(r)
  {
    PrintIdErrors(r, ps, ts) + PrintUserDataErrors(r)
  }

  /** `has('template_id')` and the template it names is missing or inactive. */
  predicate TemplateUnusable(r: PrintRequest, ts: seq<Template>) {
    r.templateId.Present() &&
    (r.templateId.Null? || FindTemplate(ts, r.templateId.value).None? ||
     !FindTemplate(ts, r.templateId.value).value.isActive)
  }

  /** `has('profile_id') && user()`, and the profile exists under another user id. */
  predicate ProfileForeign(r: PrintRequest, user: Option<int>, ps: seq<Profile>) {
    r.profileId.Given? && user.Some? &&
    FindById(ps, r.profileId.value).Some? &&
    FindById(ps, r.profileId.value).value.userId != Some(user.value)
  }

  /** The `after` hook: template, then ownership, then date ranges. */
  function PrintHookErrors(r: PrintRequest, user: Option<int>, ps: seq<Profile>, ts: seq<Template>): (e: seq<ErrorKey>)
    ensures TemplateIdKey in e <==> TemplateUnusable(r, ts)
    ensures ProfileIdKey in e <==> ProfileForeign(r, user, ps)
    ensures forall sec, i :: DateRangeKey(sec, i) in e <==>
              r.userData.Given? && Offends(r.userData.value, sec, i)
    ensures |e| > 0 && e[0].ProfileIdKey? ==> ProfileForeign(r, user, ps) && !TemplateUnusable(r, ts)
    ensures forall k :: k in e ==> k.TemplateIdKey? || k.ProfileIdKey? || k.DateRangeKey?
  {
    FailsWith(TemplateUnusable(r, ts), TemplateIdKey)
      + FailsWith(ProfileForeign(r, user, ps), ProfileIdKey)
      + DateErrors(r.userData)
  }

  /** Every error a print request collects; `user` is the authenticated
      caller's id, if any. */
  function PrintErrors(r: PrintRequest, user: Option<int>, ps: seq<Profile>, ts: seq<Template>): (e: seq<ErrorKey>)
    ensures forall k :: k in PrintRuleErrors(r, ps, ts) ==> k in e
    ensures forall k :: k in PrintHookErrors(r, user, ps, ts) ==> k in e
    ensures forall k :: k in e ==> k in PrintRuleErrors(r, ps, ts) || k in PrintHookErrors(r, user, ps, ts)
    ensures UserDataKey in e <==> UserDataRejected(r)
  {
    PrintRuleErrors(r, ps, ts) + PrintHookErrors(r, user, ps, ts)
  }

  /** A guest is never refused a profile for ownership: only a profile id
      that does not exist is reported. */
  lemma GuestSkipsOwnership(r: PrintRequest, ps: seq<Profile>, ts: seq<Template>)
    ensures ProfileIdKey in PrintErrors(r, None, ps, ts) <==>
              r.profileId.Given? && FindById(ps, r.profileId.value).None?
  {
  }

  /** An authenticated caller naming another user's profile is refused. */
  lemma ForeignProfileRefused(r: PrintRequest, user: int, ps: seq<Profile>, ts: seq<Template>, k: nat)
    requires UniqueProfileIds(ps) && k < |ps|
    requires r.profileId.Given? && ps[k].id == Some(r.profileId.value) && ps[k].userId != Some(user)
    ensures ProfileIdKey in PrintErrors(r, Some(user), ps, ts)
  {
    FindByIdUnique(ps, r.profileId.value, k);
    assert ProfileIdKey in PrintHookErrors(r, Some(user), ps, ts);
  }

  /** An inactive template is refused even though it exists. */
  lemma InactiveTemplateRefused(r: PrintRequest, user: Option<int>, ps: seq<Profile>, ts: seq<Template>, k: nat)
    requires UniqueTemplateIds(ts) && k < |ts|
    requires r.templateId == Given(ts[k].id) && !ts[k].isActive
    ensures TemplateIdKey in PrintErrors(r, user, ps, ts)
  {
    InactiveTemplateNotFound(ts, ts[k].id, k);
    assert TemplateIdKey in PrintHookErrors(r, user, ps, ts);
  }

  /** Without a profile id, a print request must carry a non-empty `user_data`. */
  lemma UserDataRequiredWithoutProfile(r: PrintRequest, user: Option<int>, ps: seq<Profile>, ts: seq<Template>)
    requires !r.profileId.Given?
    ensures UserDataKey in PrintErrors(r, user, ps, ts) <==> !(r.userData.Given? && !r.userData.value.IsEmpty())
  {
  }

  /** Both requests report exactly the same date-range keys for the same `user_data`. */
  lemma SameDateChecks(ur: UpdateRequest, pr: PrintRequest, user: Option<int>, ps: seq<Profile>, ts: seq<Template>)
    requires ur.userData == pr.userData
    ensures forall sec, i :: DateRangeKey(sec, i) in UpdateErrors(ur) <==>
                             DateRangeKey(sec, i) in PrintErrors(pr, user, ps, ts)
  {
    forall sec, i
      ensures DateRangeKey(sec, i) in PrintErrors(pr, user, ps, ts) <==>
              DateRangeKey(sec, i) in PrintHookErrors(pr, user, ps, ts)
    {
    }
  }

  /** An update request reports a list of `user_data` exactly when it is
      null, and `jobTitle` exactly when it is null or too long. */
  lemma UpdateNullChecks(r: UpdateRequest)
    ensures forall l :: ListKey(l) in UpdateErrors(r) <==> r.userData.Given? && ListIsNull(r.userData.value, l)
    ensures JobTitleKey in UpdateErrors(r) <==> r.userData.Given? && !OptionalString(r.userData.value.jobTitle, 255)
    ensures SectionsOrderKey in UpdateErrors(r) <==> r.sectionsOrder.Null?
  {
    forall l
      ensures ListKey(l) in UpdateErrors(r) <==> r.userData.Given? && ListIsNull(r.userData.value, l)
    {
      assert UpdateRuleFails(r, ListKey(l)) <==> r.userData.Given? && ListIsNull(r.userData.value, l);
    }
    assert UpdateRuleFails(r, JobTitleKey) <==> r.userData.Given? && !OptionalString(r.userData.value.jobTitle, 255);
    assert UpdateRuleFails(r, SectionsOrderKey) <==> r.sectionsOrder.Null?;
  }

  /** A key other than the ids and the date ranges comes only from the
      `user_data` rules: the hook never adds one. */
  lemma PrintUserDataKey(r: PrintRequest, user: Option<int>, ps: seq<Profile>, ts: seq<Template>, k: ErrorKey)
    requires !k.ProfileIdKey? && !k.TemplateIdKey? && !k.DateRangeKey?
    ensures k in PrintErrors(r, user, ps, ts) <==> PrintUserDataFails(r, k)
  {
    assert k !in PrintHookErrors(r, user, ps, ts);
    assert k in PrintRuleErrors(r, ps, ts) <==> k in PrintUserDataErrors(r);
  }

  /** A print request reports a list of `user_data` exactly when it is null. */
  lemma PrintListNullCheck(r: PrintRequest, user: Option<int>, ps: seq<Profile>, ts: seq<Template>, l: UserList)
    ensures ListKey(l) in PrintErrors(r, user, ps, ts) <==> r.userData.Given? && ListIsNull(r.userData.value, l)
  {
    PrintUserDataKey(r, user, ps, ts, ListKey(l));
  }

  /** A print request reports a list of `user_data` exactly when it is
      null, and `jobTitle` exactly when it is null or too long. */
  lemma PrintNullChecks(r: PrintRequest, user: Option<int>, ps: seq<Profile>, ts: seq<Template>)
    ensures forall l :: ListKey(l) in PrintErrors(r, user, ps, ts) <==> r.userData.Given? && ListIsNull(r.userData.value, l)
    ensures JobTitleKey in PrintErrors(r, user, ps, ts) <==>
              r.userData.Given? && !OptionalString(r.userData.value.jobTitle, 255)
  {
    forall l {
      PrintListNullCheck(r, user, ps, ts, l);
    }
    PrintUserDataKey(r, user, ps, ts, JobTitleKey);
  }

  /** A null list or a non-string `jobTitle` inside the same `user_data` is
      reported alike by both requests: their `sometimes|array` and
      `sometimes|string` rules coincide. */
  lemma SameListChecks(ur: UpdateRequest, pr: PrintRequest, user: Option<int>, ps: seq<Profile>, ts: seq<Template>)
    requires ur.userData == pr.userData
    ensures forall l :: ListKey(l) in UpdateErrors(ur) <==> ListKey(l) in PrintErrors(pr, user, ps, ts)
    ensures JobTitleKey in UpdateErrors(ur) <==> JobTitleKey in PrintErrors(pr, user, ps, ts)
  {
    UpdateNullChecks(ur);
    PrintNullChecks(pr, user, ps, ts);
  }
}

=== FILE: wrappers.dfy ===
/** Failure-compatible wrappers and the tri-state key of a PHP request array. */
module Wrappers {

  /** A nullable value: `None` is PHP's `null` (or a key read through `?? null`). */
  datatype Option<+T> = None | Some(value: T) {

    /** `$x ?? $default` */
    function GetOr(default: T): T {
      match this
      case Some(v) => v
      case None => default
    }
  }

  /** Either a value or an error, for operations that throw in the source. */
  datatype Result<+R, +E> = Ok(value: R) | Err(error: E)

  /** One key of a decoded JSON request array. PHP distinguishes a key that
      is missing from one that is present with value `null`: `empty($array)`,
      `Request::has` and `array_key_exists` see the difference, while `??`
      and `isset` do not. */
  datatype Slot<+T> = Absent | Null | Given(value: T) {

    /** `isset($array[$key])` */
    predicate IsSet() {
      Given?
    }

    /** `array_key_exists($key, $array)` and `Request::has($key)` */
    predicate Present() {
      !Absent?
    }

    /** `$array[$key] ?? null` */
    function OrNull(): Option<T> {
      match this
      case Given(v) => Some(v)
      case _ => None
    }

    /** `$array[$key] ?? $default` */
    function OrElse(default: T): T {
      match this
      case Given(v) => v
      case _ => default
    }

    /** `$request->input($key, $default)`: the default replaces a missing key
        only; a key present with `null` reads as `null`. */
    function InputOr(default: T): Option<T> {
      match this
      case Absent => Some(default)
      case Null => None
      case Given(v) => Some(v)
    }
  }

  /** The slot a non-null-or-null value is written into: `$array[$key] = $x`. */
  function Assigned<T>(o: Option<T>): (s: Slot<T>)
    ensures s.Present()
    ensures s.OrNull() == o
  {
    match o
    case Some(v) => Given(v)
    case None => Null
  }
}
